=== FILE: README.md ===
# RencardUserClient: accounts, tokens and profile rows

This project is a Dafny model of the user side of the Rencard dating service. It covers five things:

- **Accounts.** Registration, login, refresh, logout and password change in `AuthService`.
- **Tokens.** The access token's content and the refresh token built in `TokenService`.
- **User creation.** The new user and its four default profile rows, written by `UserService`.
- **Validation.** The request-model rules of `PhoneSexAgeRequest` and its age attribute.
- **Endpoints.** The conversions between profile entities and transfer records, and the three state-changing handlers of `MapIdentityEndpoints`: `PUT /user-phone-sex-age`, `POST /initialize-profile` and `PUT /me`.

Modules:

- `Wrappers`: `Option` and `Result`.
- `Text`: `string.Join` and `string.Split` on one character, decimal formatting, white space.
- `Dates`: .NET's `DateTime`. This covers the proleptic Gregorian calendar, `AddYears` (29 February becomes 28 February), `.Date`/`Today`, and ticks.
- `Base64`: `Convert.ToBase64String` and its inverse, following section 4 of RFC 4648.
- `AgeValidation`: both `CustomAgeValidationAttribute` classes.
- `RequestValidation`: `Validator.TryValidateObject` over the rules declared on `PhoneSexAgeRequest`.
- `Entities`: the four profile entities as classes updated in place, with their transfer and patch records and the `ToDto`/`ToEntity`/`UpdateFrom`/`ToDtoUpdate` extensions.
- `Database`: the store, as maps keyed by user id. The key of every profile table is `UserId`.
- `Identity`: the `UserManager` operations the services call. Its policy parts are an oracle.
- `Tokens`, `UserService`, `Auth`, `IdentityEndpoints`: the core operations.

Some inputs are parameters rather than computed:

- Every clock reading (`DateTime.UtcNow`, `DateTime.Today`).
- The 64 random bytes of a refresh token.
- The id of a new user.
- The user id carried by a request's principal.

In a few places the behaviour follows the code rather than the description of the service:

- `RegisterRequest`'s annotations are never enforced. Invalid-model filtering is suppressed at `Program.cs:19`, and the controller does not read the model state. So `Register` checks only the age, by comparing the full birth instant with `now` less 18 years (`AuthService.cs:38`).
- Registration does not check that the phone number is unused. The directory requires only unique e-mails (`Program.cs:43`).
- The refresh-token store holds one value per user and no issue time. A refresh checks only equality with the stored value, compared as nullable strings.
- Extra claims passed to `GenerateAccessToken` are appended after the subject claim, even one named `sub`.
- The handlers of `MapIdentityEndpoints` use the records, extensions and age attribute declared in their own file, not the ones under `Models/`.
  - The `ToDto` and `UpdateFrom` there are identical to those of `EntityExtensions`, so one `Entities` module serves both.
  - The local age attribute is modelled separately (`LocalAgeIsValid`).

## Model

| member | source | states |
|---|---|---|
| Text.SplitJoinIff | RencardUserClient/Services/AuthService.cs:47-50 | splitting on `;` the error text that `CreateAsync` joined with `;` gives back the original descriptions exactly when none of them contains `;`; otherwise more pieces come back |
| Text.NatToStringValue | RencardUserClient/Models/Validation/CustomAgeValidationAttribute.cs:13 | the decimal digits interpolated into the message read back as the number they render |
| Text.Utf16Length | RencardUserClient/Models/DTOs/PhoneSexAgeRequest.cs:18 | `string.Length`, which `[StringLength]` measures, counts UTF-16 code units: between one and two per character, and exactly one per character when every character lies in the Basic Multilingual Plane |
| Dates.AddYears | RencardUserClient/Models/Validation/CustomAgeValidationAttribute.cs:24 | `AddYears` moves the year and keeps month and day, except that 29 February becomes 28 February in a year that is not a leap year |
| Base64.Encode | RencardUserClient/Services/TokenService.cs:45 | the encoding of `n` bytes has `4*ceil(n/3)` characters: alphabet characters, then `=` padding of the length RFC 4648 prescribes |
| Base64.DecodeEncode | RencardUserClient/Services/TokenService.cs:42-46 | decoding the Base 64 text of any byte sequence gives back those bytes |
| Tokens.GenerateAccessToken | RencardUserClient/Services/TokenService.cs:21-40 | the token has the configured issuer and audience and expires at `now + Lifetime`; its claims are the subject claim first, then each extra pair in order, and nothing else |
| Tokens.GenerateRefreshToken | RencardUserClient/Services/TokenService.cs:42-46 | the refresh token is 88 alphabet characters ending in `==`, and it decodes back to the 64 random bytes |
| Tokens.RefreshTokensDiffer | RencardUserClient/Services/TokenService.cs:42-46 | different random bytes give different refresh tokens |
| AgeValidation.AgeAt | RencardUserClient/Models/Validation/CustomAgeValidationAttribute.cs:22-25 | the computed age is the year difference or one less |
| AgeValidation.AgeAtLeast | RencardUserClient/Models/Validation/CustomAgeValidationAttribute.cs:22-27 | the age is at least `n` exactly when the birth instant is not after midnight of the day `n` years before today |
| AgeValidation.DefaultErrorMessage | RencardUserClient/Models/Validation/CustomAgeValidationAttribute.cs:13 | the default message is "You must be at least ", the minimum age in decimal, then " years old" |
| AgeValidation.NewCustomAgeAttribute | RencardUserClient/Models/Validation/CustomAgeValidationAttribute.cs:9-14 | a declared `ErrorMessage` is kept; without one, the default message for the minimum age is used |
| AgeValidation.CustomAgeIsValid | RencardUserClient/Models/Validation/CustomAgeValidationAttribute.cs:17-33 | a value that is not a `DateTime` fails with "Invalid date format"; a date passes exactly when its date part is not after today less `minAge` years; a failure carries the attribute's message and the member name |
| AgeValidation.AnniversaryPasses | RencardUserClient/Models/Validation/CustomAgeValidationAttribute.cs:22-27 | someone whose `minAge`-th birthday is today passes, whatever the time of birth |
| AgeValidation.DayAfterAnniversaryFails | RencardUserClient/Models/Validation/CustomAgeValidationAttribute.cs:22-29 | someone born one day later fails with the attribute's message |
| AgeValidation.TimeOfDayIgnored | RencardUserClient/Models/Validation/CustomAgeValidationAttribute.cs:24 | the verdict does not depend on the time of day of the birth date |
| AgeValidation.EarlierBirthPasses | RencardUserClient/Models/Validation/CustomAgeValidationAttribute.cs:22-32 | the rule is monotone: an earlier birth date than one that passes also passes |
| AgeValidation.LocalAgeIsValid | RencardUserClient/Extensions/IdentityEndpointsExtensions.cs:241-250 | the endpoints' attribute rejects anything that is not a `DateTime`; a date passes exactly when the full birth instant is not after midnight `minAge` years before today |
| AgeValidation.LocalFormatErrorMessage | RencardUserClient/Extensions/IdentityEndpointsExtensions.cs:252-253 | the message is the member name, " must indicate age of at least ", the minimum age in decimal, then " years." |
| AgeValidation.LocalCountsTimeOfDay | RencardUserClient/Extensions/IdentityEndpointsExtensions.cs:245-246 | the two attributes disagree: born on the anniversary just after midnight fails the endpoints' rule and passes the request model's |
| RequestValidation.WordsAreRequired | RencardUserClient/Models/DTOs/PhoneSexAgeRequest.cs:12-20 | any value the sex or phone pattern accepts also passes `[Required]` |
| RequestValidation.PhoneWordIsBmp | RencardUserClient/Models/DTOs/PhoneSexAgeRequest.cs:18-19 | a value the phone pattern accepts is ASCII, so its UTF-16 length is its number of characters |
| RequestValidation.FailedMessages | RencardUserClient/Models/DTOs/PhoneSexAgeRequest.cs:16-19 | the collected messages are exactly those of the failed checks: none when every check passes, and every failed check's message otherwise |
| RequestValidation.BirthDateErrors | RencardUserClient/Models/DTOs/PhoneSexAgeRequest.cs:8-10 | the birth date has no error exactly when the age attribute passes; otherwise the one error is "You must be at least 18 years old" |
| RequestValidation.SexErrors | RencardUserClient/Models/DTOs/PhoneSexAgeRequest.cs:12-14 | sex has no error exactly for "male" and "female"; a blank value reports only "Sex is required"; any other value reports the pattern's message |
| RequestValidation.ThreeChecks | RencardUserClient/Models/DTOs/PhoneSexAgeRequest.cs:17-19 | with three checks, the messages are those of the failed checks in declaration order |
| RequestValidation.PhoneErrors | RencardUserClient/Models/DTOs/PhoneSexAgeRequest.cs:16-20 | a phone has no error exactly when it is present, is a phone, has 10 to 12 characters and matches `^\+?[0-9]+$`; a blank one reports only "Phone number is required"; otherwise each of the three messages appears exactly when its own check fails, the length check counting UTF-16 code units |
| RequestValidation.Validate | RencardUserClient/Models/DTOs/PhoneSexAgeRequest.cs:6-21 | the request has no validation message exactly when the age, the sex and all phone rules hold |
| Entities.AboutUser.constructor | RencardUserClient/Models/About/AboutUser.cs:11-15 | a new row has the user id and the defaults: empty description, non-smoker, alcohol "None", religion "Other" |
| Entities.UserPreferences.constructor | RencardUserClient/Models/Preferences/UserPreferences.cs:11-15 | a new row prefers "both", ages 18 to 100, radius 1 km |
| Entities.UserLocation.constructor | RencardUserClient/Models/Location/UserLocation.cs:12-14 | a new row has no point and is stamped with the clock |
| Entities.UserPhoto.constructor | RencardUserClient/Models/Photos/UserPhoto.cs:11-14 | a new row has no picture and is stamped with the clock |
| Entities.AboutUser.ToDtoUpdate | RencardUserClient/Models/DTOs/Extensions/EntityExtensions.cs:114-119 | the patch carries every field, so applying it to any record gives this row's record (`ToDto`, lines 13-18) |
| Entities.UserPreferences.ToDtoUpdate | RencardUserClient/Models/DTOs/Extensions/EntityExtensions.cs:121-126 | the patch carries every field, so applying it to any record gives this row's record (`ToDto`, lines 26-31) |
| Entities.UserLocation.ToDtoUpdate | RencardUserClient/Models/DTOs/Extensions/EntityExtensions.cs:128-131 | the patch has coordinates exactly when the row has a point, and then they are the point's |
| Entities.AboutUser.UpdateFrom | RencardUserClient/Models/DTOs/Extensions/EntityExtensions.cs:67-73 | afterwards the row reads back as the record |
| Entities.UserPreferences.UpdateFrom | RencardUserClient/Models/DTOs/Extensions/EntityExtensions.cs:75-81 | afterwards the row reads back as the record |
| Entities.UserLocation.UpdateFrom | RencardUserClient/Models/DTOs/Extensions/EntityExtensions.cs:83-87 | afterwards the row holds the WGS 84 point at the record's coordinates, stamped with the clock; it reads back as the record with the new time |
| Entities.AboutUser.ApplyPatch | RencardUserClient/Models/DTOs/Extensions/EntityExtensions.cs:88-94 | the row becomes the old record patched: each field takes the patch's value where there is one |
| Entities.UserPreferences.ApplyPatch | RencardUserClient/Models/DTOs/Extensions/EntityExtensions.cs:96-102 | the row becomes the old record patched: each field takes the patch's value where there is one |
| Entities.UserLocation.ApplyPatch | RencardUserClient/Models/DTOs/Extensions/EntityExtensions.cs:104-111 | with both coordinates, the row moves to that WGS 84 point and is stamped; otherwise it does not change |
| Entities.AboutToEntity | RencardUserClient/Models/DTOs/Extensions/EntityExtensions.cs:34-41 | a new row for the user that reads back as the record |
| Entities.PreferencesToEntity | RencardUserClient/Models/DTOs/Extensions/EntityExtensions.cs:43-50 | a new row for the user that reads back as the record |
| Entities.LocationToEntity | RencardUserClient/Models/DTOs/Extensions/EntityExtensions.cs:52-57 | a new row for the user with no point, stamped with the clock; the record's values are dropped |
| Entities.PhotoToEntity | RencardUserClient/Models/DTOs/Extensions/EntityExtensions.cs:59-64 | a new row for the user that reads back as the record |
| Entities.PatchAboutIdempotent | RencardUserClient/Models/DTOs/Extensions/EntityExtensions.cs:88-94 | applying the same patch twice is the same as once |
| Entities.PatchPreferencesIdempotent | RencardUserClient/Models/DTOs/Extensions/EntityExtensions.cs:96-102 | applying the same patch twice is the same as once |
| Entities.EmptyPatchKeepsAbout | RencardUserClient/Models/DTOs/Extensions/EntityExtensions.cs:88-94 | a patch without values changes nothing |
| Entities.EmptyPatchKeepsPreferences | RencardUserClient/Models/DTOs/Extensions/EntityExtensions.cs:96-102 | a patch without values changes nothing |
| Entities.PatchAboutFieldwise | RencardUserClient/Models/DTOs/Extensions/EntityExtensions.cs:88-94 | a field changes only when the patch carries a value for it, and then it takes that value |
| Entities.PatchPreferencesFieldwise | RencardUserClient/Models/DTOs/Extensions/EntityExtensions.cs:96-102 | a field changes only when the patch carries a value for it, and then it takes that value |
| Database.RencardDb.AddAboutUser | RencardUserClient/Database/RencardUserDbContext.cs:31-32 | adding a row for a user without one puts it under the user id and keeps the keys consistent; no other table changes |
| Database.RencardDb.AddUserPreferences | RencardUserClient/Database/RencardUserDbContext.cs:25-26 | adding a row for a user without one puts it under the user id and keeps the keys consistent; no other table changes |
| Database.RencardDb.AddUserLocation | RencardUserClient/Database/RencardUserDbContext.cs:28-29 | adding a row for a user without one puts it under the user id and keeps the keys consistent; no other table changes |
| Database.RencardDb.AddUserPhoto | RencardUserClient/Database/RencardUserDbContext.cs:34-35 | adding a row for a user without one puts it under the user id and keeps the keys consistent; no other table changes |
| Database.RencardDb.AddProfileRows | RencardUserClient/Services/UserService.cs:45-50 | the four adds and the save: one row per profile table for the new user; users and tokens are unchanged |
| Database.RencardDb.ReplaceRefreshToken | RencardUserClient/Services/AuthService.cs:111-116 | after the remove and the set, the user's stored refresh token is the new value; other users' tokens, the users and the profile tables are unchanged |
| Database.AboutViewInsert | RencardUserClient/Database/RencardUserDbContext.cs:31-32 | inserting a row under a new key adds its record to the table's records and changes no other |
| Database.PreferencesViewInsert | RencardUserClient/Database/RencardUserDbContext.cs:25-26 | inserting a row under a new key adds its record to the table's records and changes no other |
| Database.LocationViewInsert | RencardUserClient/Database/RencardUserDbContext.cs:28-29 | inserting a row under a new key adds its record to the table's records and changes no other |
| Identity.CreateErrors | RencardUserClient/Program.cs:39-44 | creation is refused exactly when the password policy, the name or e-mail rules, or uniqueness of user name or e-mail complain; once the password is acceptable, a taken name or e-mail is reported whenever that name or address passes its own character rule, and a name or address that fails its rule is never also reported as taken |
| Identity.Create | RencardUserClient/Services/UserService.cs:35 | refused with the directory's descriptions when they are not empty; otherwise a user without a sex is rejected by the store, because `User.Sex` is required and its column does not accept `null`; otherwise the user is stored with the password's hash; nothing is stored unless it is created |
| Identity.FindByEmail | RencardUserClient/Services/AuthService.cs:57-59 | a user is found exactly when one has that e-mail, and it is the stored user with that e-mail |
| Identity.ChangePassword | RencardUserClient/Services/AuthService.cs:100-101 | the directory's verdict on the stored hash and both passwords is returned; on success the hash becomes the new password's, otherwise it is unchanged |
| UserService.CreateAsync | RencardUserClient/Services/UserService.cs:23-52 | a refused creation fails with an `InvalidOperationException` carrying the descriptions joined by `;`; an acceptable one with a `null` sex fails with the store's `DbUpdateException`; neither changes anything; a success, exactly when the directory accepts and the sex is present, stores the user (name and e-mail the address, the phone exactly as given, `null` included, the sex, the birth date and the password hash) and adds exactly one default row per profile table |
| Auth.AuthService.IssueTokens | RencardUserClient/Services/AuthService.cs:104-129 | succeeds with a subject-only access token and the refresh token of the random bytes; the stored refresh token is replaced; a persistent, refreshable cookie expiring after `CookieLifetime` is issued only when `useJwt` is false |
| Auth.AuthService.Register | RencardUserClient/Services/AuthService.cs:36-53 | born after `now` less 18 years fails with the age message and changes nothing; a refused creation returns the descriptions recovered by splitting on `;` and changes nothing; an acceptable one with a `null` sex ends with the store's exception escaping, which is a server error, and changes nothing; otherwise the new user is stored with the request's address as name and e-mail, its phone exactly as sent (`null` included), its sex, birth date and password hash, no other user changes, each profile table gains exactly its default row, and the user receives tokens |
| Auth.AuthService.Login | RencardUserClient/Services/AuthService.cs:55-66 | an unknown e-mail and a wrong password give the same "Invalid credentials" and change nothing; otherwise the user with that e-mail receives tokens, and users and profile tables are unchanged |
| Auth.AuthService.Logout | RencardUserClient/Services/AuthService.cs:68-73 | the cookie session ends unless the service uses JWT |
| Auth.AuthService.Refresh | RencardUserClient/Services/AuthService.cs:75-88 | as written: an unknown user fails with "User not found"; a presented token, `null` included, that differs from the stored one (absent counting as `null`) fails with "Invalid refresh token"; both change nothing; otherwise tokens are reissued, with a cookie only when the service does not use JWT, and users and profile tables are unchanged |
| Auth.AuthService.RefreshWithStoredToken | RencardUserClient/Services/AuthService.cs:75-88 | corrected: a refresh succeeds exactly when the user exists, a token is presented and it equals the stored one; failures change nothing; a success reissues tokens as `Refresh` does |
| Auth.AuthService.ChangePassword | RencardUserClient/Services/AuthService.cs:90-102 | no subject fails with "Unauthorized"; an unknown user with "User not found"; otherwise success is the directory's verdict and the hash changes only on success; refresh tokens are never touched |
| Auth.ReplayedRefreshTokenRejected | RencardUserClient/Services/AuthService.cs:82-85 | after a successful refresh, the same refresh token presented again is refused |
| Auth.NullRefreshTokenAccepted | RencardUserClient/Services/AuthService.cs:82-87 | as written, a `null` refresh token for an existing user with no stored token is accepted and a subject token for that user is issued |
| Auth.NullRefreshTokenRejected | RencardUserClient/Services/AuthService.cs:82-87 | with the corrected check, a `null` refresh token is refused for every user |
| IdentityEndpoints.PutUserPhoneSexAge | RencardUserClient/Extensions/IdentityEndpointsExtensions.cs:18-44 | validation messages give 400 with them; no user gives 401; a phone held by any user, the caller included, or `null` when some user has no phone, gives 400; otherwise phone, sex and birth date are set and the result is 200; no user changes unless it is 200 |
| IdentityEndpoints.InitializeAbout | RencardUserClient/Extensions/IdentityEndpointsExtensions.cs:54-55 | a missing row is added with the defaults; an existing row is left as is |
| IdentityEndpoints.InitializePreferences | RencardUserClient/Extensions/IdentityEndpointsExtensions.cs:57-58 | a missing row is added with the defaults; an existing row is left as is |
| IdentityEndpoints.InitializeLocation | RencardUserClient/Extensions/IdentityEndpointsExtensions.cs:60-65 | a missing row is added at the point (0, 0) of WGS 84, stamped with the clock; an existing row is left as is |
| IdentityEndpoints.InitializePhoto | RencardUserClient/Extensions/IdentityEndpointsExtensions.cs:67-68 | a missing row is added without a picture; an existing row is left as is |
| IdentityEndpoints.InitializeProfile | RencardUserClient/Extensions/IdentityEndpointsExtensions.cs:46-72 | no user gives 401 and changes nothing; otherwise each profile table gains a default row exactly where the caller had none, and the result is "Profile initialized"; once all four rows exist, a call changes nothing |
| IdentityEndpoints.UpsertAbout | RencardUserClient/Extensions/IdentityEndpointsExtensions.cs:103-106 | the caller's about record becomes the request's, whether or not a row existed; no other record changes |
| IdentityEndpoints.UpsertPreferences | RencardUserClient/Extensions/IdentityEndpointsExtensions.cs:109-112 | the caller's preferences record becomes the request's, whether or not a row existed; no other record changes |
| IdentityEndpoints.UpsertLocation | RencardUserClient/Extensions/IdentityEndpointsExtensions.cs:115-118 | the caller's location record becomes the request's with the clock's time, whether or not a row existed; no other record changes |
| IdentityEndpoints.PutMe | RencardUserClient/Extensions/IdentityEndpointsExtensions.cs:93-122 | the corrected handler: no user gives 401; a missing part gives 500 with nothing changed; otherwise 204, and the caller's about, preferences and location records read back as the request (location stamped), created where missing; users, tokens and photos are unchanged |
| IdentityEndpoints.PutMeAsWritten | RencardUserClient/Extensions/IdentityEndpointsExtensions.cs:93-122 | the handler as written: for a signed-in caller it gives 204 exactly when the request is complete and all three rows already exist, and then the records read back as the request; otherwise it gives 500 and nothing is saved |

## Left out

- Signing and serialising the JWT (`SigningCredentials`, `WriteToken`). The access token is modelled as its content: issuer, audience, claims and expiry.
- The random number generator, the clock and GUID generation. They are parameters: 64 bytes, a `DateTime` per operation, a fresh id.
- Password hashing, the password policy, the user-name and e-mail character rules, `CheckPasswordSignInAsync`, and `ChangePasswordAsync`'s own checks. These belong to ASP.NET Identity and are the fields of `Identity.IdentityOracle`. User-name and e-mail normalisation and lockout are not modelled.
- `Identity.CreateErrors`: it does not model the framework's exact wording and order beyond the password policy coming first and the two duplicate messages.
- The `[Phone]` attribute's pattern, which belongs to the framework. It is the predicate `isPhone`.
- `IdentityEndpoints.PutUserPhoneSexAge`: `validationErrors` is a parameter.
  - The local record at `IdentityEndpointsExtensions.cs:149-153` declares its attributes on positional parameters. `TryValidateObject` reads property attributes only, so for that record the list is always empty.
  - `UpdateAsync` is taken to succeed, so its error branch (`IdentityEndpointsExtensions.cs:43`) is not modelled. This includes a `null` sex, which the store would reject because the `Sex` column does not accept `null`.
- `GET /me` and `POST /logout` of `MapIdentityEndpoints`. The first only reads the caller's rows through `ToDto`. The second ends the cookie session unconditionally and touches no table.
- `AuthController`'s mapping of results to HTTP status codes. It is a transport layer over the `Auth` operations.
- A `null` `UserId` in a refresh request or a `null` `Email` in a login request. `FindByIdAsync` and `FindByEmailAsync` throw on `null`, which ends the request with a server error; the model's ids and addresses are plain strings.
- Auth.AuthService.Register: a `null` password or e-mail in the registration body is not expressible; the model's password and address are plain strings. The binder lets such a body through, since `[Required]` is not enforced. `UserManager.CreateAsync` then throws `ArgumentNullException` on a `null` password, and the `catch (InvalidOperationException)` at `AuthService.cs:47` does not catch it, so the request ends with a server error. A `null` phone is modelled and stored as given; a `null` sex is modelled as the store's rejection.
- UserService.CreateAsync: for the same reason a `null` password is not expressible; `UserManager.CreateAsync` would throw `ArgumentNullException` at `UserService.cs:35` before anything is stored.
- Where the principal's id comes from. `GetUserAsync` and the `sub` claim are an `Option<string>` parameter.
- `DateTimeKind`, time zones and the range limits of `DateTime` (years 1 to 9999). Dates are unbounded.
- `double` coordinates. They are kept as their 64 bits and never computed on.
- Concurrency between requests, and database failures other than the one the finding describes.

## Findings

| source | as written | input that shows it | evidently intended | confidence | as-written member | corrected member |
|---|---|---|---|---|---|---|
| RencardUserClient/Extensions/IdentityEndpointsExtensions.cs:103-120 | A missing profile row is replaced by a new entity, which is then passed to `Update`. Its key `UserId` is set and not generated by the store, so the entity is tracked as modified. The save then updates no row and throws, and the request ends with 500. | A signed-in user with no `AboutUsers` row (for instance one created outside `RegisterAsync`, before `POST /initialize-profile`) sends a complete `PUT /me`. | The missing row is created with the request's values, as for a user who already has the row. | medium, not executed | IdentityEndpoints.PutMeAsWritten | IdentityEndpoints.PutMe |
| RencardUserClient/Services/AuthService.cs:82-87 | The stored refresh token is compared with the presented one as nullable strings. A user without a stored token yields `null`, and the body binder accepts an explicit `null` token because `[Required]` is not enforced (`Program.cs:19`). So `null` equals `null` and new tokens are issued. | `{"userId": "<id of a user who never signed in through this service>", "refreshToken": null}` posted to the refresh endpoint, for instance for a user registered through the identity API endpoints (`Program.cs:78`). | A refresh is refused unless a token is presented and the user has that token stored. | medium, not executed | Auth.AuthService.Refresh | Auth.AuthService.RefreshWithStoredToken |

=== FILE: age_validation.dfy ===
/**
 * The two age rules of the service: `CustomAgeValidationAttribute` of the request models,
 * which compares the date part of the birth date, and the copy kept beside the identity
 * endpoints, which compares the full `DateTime`. Both compute a whole-year age against
 * `DateTime.Today`, which is a parameter here.
 */
module AgeValidation {
  import opened Wrappers
  import opened Dates
  import Text

  /**
   * Whole years from `birth` to midnight of `today`: the year difference, less one when
   * `birth` lies after `today` moved back by that many years.
   */
  function AgeAt(birth: DateTime, today: Date): (age: int)
    ensures age == today.year - birth.date.year || age == today.year - birth.date.year - 1
  {
    var years := today.year - birth.date.year;
    if Later(birth, Midnight(AddYears(today, -years))) then years - 1 else years
  }

  /**
   * The age is at least `n` exactly when `birth` is not after midnight of the day
   * `n` years before `today`.
   */
  lemma AgeAtLeast(birth: DateTime, today: Date, n: int)
    ensures AgeAt(birth, today) >= n <==> !Later(birth, Midnight(AddYears(today, -n)))
  {
    var years := today.year - birth.date.year;
    if n < years {
      assert AddYears(today, -n).year > birth.date.year;
    } else if n > years {
      assert AddYears(today, -n).year < birth.date.year;
    }
  }

  /** The object handed to `IsValid`: `null`, a boxed `DateTime`, or something else. */
  datatype Value = Null | DateValue(date: DateTime) | OtherValue

  /** A failed `ValidationResult`: its message and the member names it names. */
  datatype ValidationFailure = ValidationFailure(message: string, memberNames: seq<string>)

  /** The message the attribute falls back on when none is given. */
  function DefaultErrorMessage(minAge: int): (s: string)
    ensures |s| > 31
    ensures s[..21] == "You must be at least " && s[|s| - 10..] == " years old"
    ensures Text.IntToString(minAge) == s[21..|s| - 10]
  {
    var s := "You must be at least " + Text.IntToString(minAge) + " years old";
    assert s[21..|s| - 10] == Text.IntToString(minAge);
    s
  }

  /** `CustomAgeValidationAttribute` once built: its minimum age and its error message. */
  datatype CustomAgeAttribute = CustomAgeAttribute(minAge: int, errorMessage: string)

  /**
   * The attribute as declared: the constructor puts in the default message, and an
   * `ErrorMessage` named in the declaration replaces it.
   */
  function NewCustomAgeAttribute(minAge: int, errorMessage: Option<string>): (a: CustomAgeAttribute)
    ensures a.minAge == minAge
    ensures errorMessage.Some? ==> a.errorMessage == errorMessage.value
    ensures errorMessage.None? ==> a.errorMessage == DefaultErrorMessage(minAge)
  {
    CustomAgeAttribute(minAge, if errorMessage.Some? then errorMessage.value else DefaultErrorMessage(minAge))
  }

  /**
   * `CustomAgeValidationAttribute.IsValid`: `None` for success, otherwise the failure.
   * Only the date part of the birth date counts.
   */
  function CustomAgeIsValid(attr: CustomAgeAttribute, value: Value, memberName: string, today: Date)
    : (r: Option<ValidationFailure>)
    ensures !value.DateValue? ==> r == Some(ValidationFailure("Invalid date format", [memberName]))
    ensures value.DateValue? ==>
      (r.None? <==> !DateLess(AddYears(today, -attr.minAge), value.date.date))
    ensures value.DateValue? && r.Some? ==> r == Some(ValidationFailure(attr.errorMessage, [memberName]))
  {
    match value
    case DateValue(birth) =>
      var age := AgeAt(Midnight(birth.date), today);
      AgeAtLeast(Midnight(birth.date), today, attr.minAge);
      if age < attr.minAge then Some(ValidationFailure(attr.errorMessage, [memberName])) else None
    case _ => Some(ValidationFailure("Invalid date format", [memberName]))
  }

  /** Born exactly `minAge` years before today, at any time of day, passes. */
  lemma AnniversaryPasses(attr: CustomAgeAttribute, time: TimeOfDay, memberName: string, today: Date)
    ensures CustomAgeIsValid(attr, DateValue(DateTime(AddYears(today, -attr.minAge), time)), memberName, today).None?
  {
  }

  /** Born one day after that anniversary fails. */
  lemma DayAfterAnniversaryFails(attr: CustomAgeAttribute, time: TimeOfDay, memberName: string, today: Date)
    ensures CustomAgeIsValid(attr, DateValue(DateTime(NextDay(AddYears(today, -attr.minAge)), time)), memberName, today)
         == Some(ValidationFailure(attr.errorMessage, [memberName]))
  {
  }

  /** The verdict does not depend on the time of day of the birth date. */
  lemma TimeOfDayIgnored(attr: CustomAgeAttribute, d: Date, t1: TimeOfDay, t2: TimeOfDay, memberName: string, today: Date)
    ensures CustomAgeIsValid(attr, DateValue(DateTime(d, t1)), memberName, today)
         == CustomAgeIsValid(attr, DateValue(DateTime(d, t2)), memberName, today)
  {
  }

  /** A birth date earlier than one that passes also passes. */
  lemma EarlierBirthPasses(attr: CustomAgeAttribute, earlier: DateTime, later: DateTime, memberName: string, today: Date)
    requires !Later(earlier, later)
    requires CustomAgeIsValid(attr, DateValue(later), memberName, today).None?
    ensures CustomAgeIsValid(attr, DateValue(earlier), memberName, today).None?
  {
  }

  /**
   * `CustomAgeValidationAttribute.IsValid` of the endpoints file: `false` for anything that
   * is not a `DateTime`; otherwise whether the whole-year age, taken on the full `DateTime`,
   * reaches `minAge`.
   */
  function LocalAgeIsValid(minAge: int, value: Value, today: Date): (r: bool)
    ensures !value.DateValue? ==> !r
    ensures value.DateValue? ==> (r <==> !Later(value.date, Midnight(AddYears(today, -minAge))))
  {
    match value
    case DateValue(birth) =>
      AgeAtLeast(birth, today, minAge);
      AgeAt(birth, today) >= minAge
    case _ => false
  }

  /** `FormatErrorMessage` of the endpoints' attribute. */
  function LocalFormatErrorMessage(minAge: int, name: string): (s: string)
    ensures |s| > |name| + 38
    ensures s[..|name|] == name && s[|name|..|name| + 31] == " must indicate age of at least "
    ensures s[|name| + 31..|s| - 7] == Text.IntToString(minAge) && s[|s| - 7..] == " years."
  {
    var head, digits := name + " must indicate age of at least ", Text.IntToString(minAge);
    var s := head + digits + " years.";
    assert s[..|head|] == head && s[|head|..|s| - 7] == digits;
    assert head[..|name|] == name && head[|name|..] == " must indicate age of at least ";
    s
  }

  /**
   * Unlike the request-model attribute, the endpoints' copy counts the time of day:
   * born on the anniversary just after midnight is too young for it, yet passes the other.
   */
  lemma LocalCountsTimeOfDay(minAge: int, memberName: string, today: Date)
    ensures var birth := DateTime(AddYears(today, -minAge), 1);
      !LocalAgeIsValid(minAge, DateValue(birth), today)
      && CustomAgeIsValid(CustomAgeAttribute(minAge, ""), DateValue(birth), memberName, today).None?
  {
  }
}

=== FILE: auth_service.dfy ===
/**
 * `AuthService`: registration, login, refresh, logout and password change over the user
 * directory, the refresh-token table and the cookie session of the current request.
 * The clock, the 64 random bytes of a new refresh token and the id of a new user are
 * parameters.
 */
module Auth {
  import opened Wrappers
  import opened Dates
  import opened Database
  import Identity
  import UserService
  import Tokens
  import Text
  import Base64

  /** `AuthOptions`; `cookieLifetime` is a `TimeSpan` in ticks. */
  datatype AuthOptions = AuthOptions(useJwt: bool, cookieLifetime: int)

  /** The defaults: cookies, for seven days. */
  const DefaultAuthOptions: AuthOptions := AuthOptions(false, 7 * TicksPerDay)

  /** The authentication cookie `SignInAsync` issues; `expiresUtc` is an instant in ticks. */
  datatype CookieSession = CookieSession(userId: string, isPersistent: bool, expiresUtc: int, allowRefresh: bool)

  /** The access token (as its content) and the refresh token handed to the client. */
  datatype TokenResponse = TokenResponse(accessToken: Tokens.JwtToken, refreshToken: string)

  /** The `(Success, Token, Errors)` triple the operations return. */
  datatype AuthResult = AuthResult(success: bool, token: Option<TokenResponse>, errors: seq<string>)

  /**
   * How a registration ends: with a result, or with an exception `RegisterAsync` does not
   * catch, which the host answers with a server error.
   */
  datatype RegisterOutcome = Returned(result: AuthResult) | Threw(exception: UserService.CreateException)

  /** The body of a registration; the JSON binder lets an explicit `null` phone or sex through. */
  datatype RegisterRequest = RegisterRequest(
    email: string, password: string, phoneNumber: Option<string>, birthDate: DateTime, sex: Option<string>, useJwt: bool)

  datatype LoginRequest = LoginRequest(email: string, password: string, useJwt: bool)

  /** The body of a refresh; the JSON binder lets an explicit `null` token through. */
  datatype RefreshTokenRequest = RefreshTokenRequest(refreshToken: Option<string>, userId: string)

  datatype ChangePasswordRequest = ChangePasswordRequest(currentPassword: string, newPassword: string)

  const UnderageMessage: string := "User must be at least 18 years old."
  const InvalidCredentialsMessage: string := "Invalid credentials"
  const UserNotFoundMessage: string := "User not found"
  const InvalidRefreshTokenMessage: string := "Invalid refresh token"
  const UnauthorizedMessage: string := "Unauthorized"

  /** A failed operation with one message. */
  function Failed(message: string): AuthResult
  {
    AuthResult(false, None, [message])
  }

  /** The access token `GenerateAccessToken(userId)` builds at `now`: the subject claim alone. */
  function AccessTokenFor(options: Tokens.JwtOptions, userId: string, now: DateTime): Tokens.JwtToken
  {
    Tokens.JwtToken(options.issuer, options.audience, [Tokens.Claim("sub", userId)], AddTicks(now, options.lifetime))
  }

  class AuthService {
    const db: RencardDb
    const identity: Identity.IdentityOracle
    const authOptions: AuthOptions
    const jwtOptions: Tokens.JwtOptions
    /** The cookie of the current request's sign-in, if any. */
    var session: Option<CookieSession>

    constructor (db: RencardDb, identity: Identity.IdentityOracle, authOptions: AuthOptions, jwtOptions: Tokens.JwtOptions)
      ensures this.db == db && this.identity == identity
      ensures this.authOptions == authOptions && this.jwtOptions == jwtOptions
      ensures session == None
    {
      this.db, this.identity := db, identity;
      this.authOptions, this.jwtOptions := authOptions, jwtOptions;
      session := None;
    }

    ghost predicate Valid()
      reads db
    {
      db.Valid()
    }

    /** The result of a successful `IssueTokensAsync` for `userId` with these random bytes. */
    ghost predicate IssuedTo(r: AuthResult, userId: string, now: DateTime, randomBytes: seq<Base64.byte>)
      requires |randomBytes| == 64
    {
      r == AuthResult(true, Some(TokenResponse(AccessTokenFor(jwtOptions, userId, now),
                                               Tokens.GenerateRefreshToken(randomBytes))), [])
    }

    /**
     * `IssueTokensAsync(user, useJwt)`: new access and refresh tokens; the stored refresh
     * token is removed and replaced by the new one; a persistent cookie session is signed in
     * only when `useJwt` is false.
     */
    method IssueTokens(user: User, useJwt: bool, now: DateTime, randomBytes: seq<Base64.byte>) returns (r: AuthResult)
      requires Valid() && user.id in db.users && |randomBytes| == 64
      modifies this, db
      ensures Valid()
      ensures IssuedTo(r, user.id, now, randomBytes)
      ensures db.refreshTokens == old(db.refreshTokens)[user.id := r.token.value.refreshToken]
      ensures db.users == old(db.users) && db.ProfileTables() == old(db.ProfileTables())
      ensures session == if useJwt then old(session)
                         else Some(CookieSession(user.id, true, AddTicks(now, authOptions.cookieLifetime), true))
    {
      var accessToken := Tokens.GenerateAccessToken(jwtOptions, user.id, None, now);
      assert accessToken.claims == [Tokens.Claim("sub", user.id)];
      var refreshToken := Tokens.GenerateRefreshToken(randomBytes);

      db.ReplaceRefreshToken(user.id, refreshToken);

      if !useJwt {
        session := Some(CookieSession(user.id, true, AddTicks(now, authOptions.cookieLifetime), true));
      }

      r := AuthResult(true, Some(TokenResponse(accessToken, refreshToken)), []);
    }

    /**
     * `RegisterAsync`: too young (born after `now` less 18 years) fails before anything is
     * created; a refused creation fails with the directory's descriptions as recovered by
     * splitting the exception message on `;`; a user the store rejects (one without a sex)
     * lets the store's exception escape; otherwise the new user gets tokens.
     */
    method Register(dto: RegisterRequest, now: DateTime, newId: string, randomBytes: seq<Base64.byte>)
      returns (r: RegisterOutcome)
      requires Valid() && newId !in db.users && |randomBytes| == 64
      modifies this, db
      ensures Valid()
      ensures Later(dto.birthDate, AddYearsAt(now, -18)) ==>
        r == Returned(Failed(UnderageMessage)) && unchanged(db) && session == old(session)
      ensures !Later(dto.birthDate, AddYearsAt(now, -18)) && old(Identity.CreateErrors(identity, db, dto.email, dto.password)) == []
              && dto.sex.Some? ==>
        && newId in db.users
        && var user := db.users[newId];
           && fresh(user)
           && user.userName == dto.email && user.email == Some(dto.email)
           && user.phoneNumber == dto.phoneNumber && user.birthDate == Some(dto.birthDate) && user.sex == dto.sex
           && user.passwordHash == identity.hashPassword(dto.password)
      ensures !Later(dto.birthDate, AddYearsAt(now, -18)) ==>
        var errors := old(Identity.CreateErrors(identity, db, dto.email, dto.password));
        && (errors != [] ==>
              && r == Returned(AuthResult(false, None, Text.Split(Text.Join(errors, ';'), ';')))
              && db.users == old(db.users) && db.ProfileTables() == old(db.ProfileTables())
              && db.refreshTokens == old(db.refreshTokens) && session == old(session))
        && (errors == [] && dto.sex.None? ==>
              && r == Threw(UserService.DbUpdateException)
              && db.users == old(db.users) && db.ProfileTables() == old(db.ProfileTables())
              && db.refreshTokens == old(db.refreshTokens) && session == old(session))
        && (errors == [] && dto.sex.Some? ==>
              && r.Returned? && newId in db.users && IssuedTo(r.result, newId, now, randomBytes)
              && db.users == old(db.users)[newId := db.users[newId]]
              && UserService.DefaultRowsAdded(db, old(db.ProfileTables()), newId, now)
              && db.refreshTokens == old(db.refreshTokens)[newId := r.result.token.value.refreshToken]
              && session == if dto.useJwt then old(session)
                             else Some(CookieSession(newId, true, AddTicks(now, authOptions.cookieLifetime), true)))
    {
      if Later(dto.birthDate, AddYearsAt(now, -18)) {
        return Returned(Failed(UnderageMessage));
      }

      var created := UserService.CreateAsync(db, identity, dto.email, dto.password, dto.phoneNumber,
                                             dto.birthDate, dto.sex, newId, now);
      if created.Failure? {
        match created.error
        case InvalidOperationException(message) =>
          return Returned(AuthResult(false, None, Text.Split(message, ';')));
        case DbUpdateException =>
          return Threw(UserService.DbUpdateException);
      }

      var result := IssueTokens(created.value, dto.useJwt, now, randomBytes);
      r := Returned(result);
    }

    /**
     * `LoginAsync`: an unknown e-mail and a wrong password give the same single error;
     * otherwise the user with that e-mail gets tokens.
     */
    method Login(dto: LoginRequest, now: DateTime, randomBytes: seq<Base64.byte>) returns (r: AuthResult)
      requires Valid() && |randomBytes| == 64
      modifies this, db
      ensures Valid()
      ensures !old(db.EmailTaken(dto.email)) ==>
        r == Failed(InvalidCredentialsMessage) && unchanged(db) && session == old(session)
      ensures old(db.EmailTaken(dto.email)) ==>
        var user := old(db.UserWithEmail(dto.email));
        if identity.passwordMatches(old(user.passwordHash), dto.password) then
          && IssuedTo(r, user.id, now, randomBytes)
          && db.refreshTokens == old(db.refreshTokens)[user.id := r.token.value.refreshToken]
          && db.users == old(db.users) && db.ProfileTables() == old(db.ProfileTables())
          && session == if dto.useJwt then old(session)
                         else Some(CookieSession(user.id, true, AddTicks(now, authOptions.cookieLifetime), true))
        else
          r == Failed(InvalidCredentialsMessage) && unchanged(db) && session == old(session)
    {
      var found := Identity.FindByEmail(db, dto.email);
      if found.None? {
        return Failed(InvalidCredentialsMessage);
      }
      var user := found.value;

      if !identity.passwordMatches(user.passwordHash, dto.password) {
        return Failed(InvalidCredentialsMessage);
      }

      r := IssueTokens(user, dto.useJwt, now, randomBytes);
    }

    /** `LogoutAsync`: the cookie session ends, unless the service is configured for tokens. */
    method Logout()
      modifies this
      ensures session == if authOptions.useJwt then old(session) else None
    {
      if !authOptions.useJwt {
        session := None;
      }
    }

    /**
     * `RefreshTokenAsync` as written: the user must exist and the presented token must equal
     * the stored one, compared as nullable strings, so a `null` token matches a user who has
     * no stored token; then new tokens are issued, with a cookie session only when the
     * service is not configured for tokens.
     */
    method Refresh(dto: RefreshTokenRequest, now: DateTime, randomBytes: seq<Base64.byte>) returns (r: AuthResult)
      requires Valid() && |randomBytes| == 64
      modifies this, db
      ensures Valid()
      ensures dto.userId !in old(db.users) ==>
        r == Failed(UserNotFoundMessage) && unchanged(db) && session == old(session)
      ensures dto.userId in old(db.users) && old(db.StoredRefreshToken(dto.userId)) != dto.refreshToken ==>
        r == Failed(InvalidRefreshTokenMessage) && unchanged(db) && session == old(session)
      ensures dto.userId in old(db.users) && old(db.StoredRefreshToken(dto.userId)) == dto.refreshToken ==>
        && IssuedTo(r, dto.userId, now, randomBytes)
        && db.refreshTokens == old(db.refreshTokens)[dto.userId := r.token.value.refreshToken]
        && db.users == old(db.users) && db.ProfileTables() == old(db.ProfileTables())
        && session == if authOptions.useJwt then old(session)
                       else Some(CookieSession(dto.userId, true, AddTicks(now, authOptions.cookieLifetime), true))
    {
      if dto.userId !in db.users {
        return Failed(UserNotFoundMessage);
      }
      var user := db.users[dto.userId];

      var stored := db.StoredRefreshToken(user.id);
      if stored != dto.refreshToken {
        return Failed(InvalidRefreshTokenMessage);
      }

      r := IssueTokens(user, authOptions.useJwt, now, randomBytes);
    }

    /**
     * `RefreshTokenAsync` as evidently intended: a refresh is accepted only when a token is
     * presented, the user has one stored, and the two are equal.
     */
    method RefreshWithStoredToken(dto: RefreshTokenRequest, now: DateTime, randomBytes: seq<Base64.byte>)
      returns (r: AuthResult)
      requires Valid() && |randomBytes| == 64
      modifies this, db
      ensures Valid()
      ensures r.success <==>
        dto.userId in old(db.users) && dto.refreshToken.Some? && old(db.StoredRefreshToken(dto.userId)) == dto.refreshToken
      ensures dto.userId !in old(db.users) ==>
        r == Failed(UserNotFoundMessage) && unchanged(db) && session == old(session)
      ensures dto.userId in old(db.users) && (dto.refreshToken.None? || old(db.StoredRefreshToken(dto.userId)) != dto.refreshToken) ==>
        r == Failed(InvalidRefreshTokenMessage) && unchanged(db) && session == old(session)
      ensures r.success ==>
        && IssuedTo(r, dto.userId, now, randomBytes)
        && db.refreshTokens == old(db.refreshTokens)[dto.userId := r.token.value.refreshToken]
        && db.users == old(db.users) && db.ProfileTables() == old(db.ProfileTables())
        && session == if authOptions.useJwt then old(session)
                       else Some(CookieSession(dto.userId, true, AddTicks(now, authOptions.cookieLifetime), true))
    {
      if dto.userId !in db.users {
        return Failed(UserNotFoundMessage);
      }
      var user := db.users[dto.userId];

      var stored := db.StoredRefreshToken(user.id);
      if dto.refreshToken.None? || stored != dto.refreshToken {
        return Failed(InvalidRefreshTokenMessage);
      }

      r := IssueTokens(user, authOptions.useJwt, now, randomBytes);
    }

    /**
     * `ChangePasswordAsync`: `subject` is the request's `sub` claim. Without it, or for an
     * unknown user, it fails with a fixed message; otherwise the directory's verdict is
     * returned. The refresh-token table is never touched.
     */
    method ChangePassword(subject: Option<string>, dto: ChangePasswordRequest) returns (success: bool, errors: seq<string>)
      requires Valid()
      modifies if subject.Some? && subject.value in db.users then {db.users[subject.value]} else {}
      ensures Valid()
      ensures subject.None? ==> !success && errors == [UnauthorizedMessage]
      ensures subject.Some? && subject.value !in db.users ==> !success && errors == [UserNotFoundMessage]
      ensures subject.Some? && subject.value in db.users ==>
        var user := db.users[subject.value];
        && errors == identity.changePasswordErrors(old(user.passwordHash), dto.currentPassword, dto.newPassword)
        && success == (errors == [])
        && user.passwordHash == if success then identity.hashPassword(dto.newPassword) else old(user.passwordHash)
      ensures db.refreshTokens == old(db.refreshTokens)
    {
      if subject.None? {
        return false, [UnauthorizedMessage];
      }
      if subject.value !in db.users {
        return false, [UserNotFoundMessage];
      }
      var user := db.users[subject.value];

      errors := Identity.ChangePassword(identity, user, dto.currentPassword, dto.newPassword);
      success := errors == [];
    }
  }

  /**
   * After a successful refresh, presenting the same refresh token again is refused: only
   * the newest token is stored.
   */
  method ReplayedRefreshTokenRejected(auth: AuthService, dto: RefreshTokenRequest, now: DateTime,
                                      first: seq<Base64.byte>, second: seq<Base64.byte>)
    returns (r1: AuthResult, r2: AuthResult)
    requires auth.Valid() && |first| == 64 && |second| == 64
    requires Some(Tokens.GenerateRefreshToken(first)) != dto.refreshToken
    modifies auth, auth.db
    ensures r1.success ==> r2 == Failed(InvalidRefreshTokenMessage)
  {
    r1 := auth.RefreshWithStoredToken(dto, now, first);
    r2 := auth.RefreshWithStoredToken(dto, now, second);
  }

  /**
   * As written, a refresh with a `null` token succeeds for any user who has no stored
   * refresh token, such as one who never signed in through this service.
   */
  method NullRefreshTokenAccepted(auth: AuthService, userId: string, now: DateTime, randomBytes: seq<Base64.byte>)
    returns (r: AuthResult)
    requires auth.Valid() && userId in auth.db.users && userId !in auth.db.refreshTokens && |randomBytes| == 64
    modifies auth, auth.db
    ensures r.success && r.token.Some? && r.token.value.accessToken.claims == [Tokens.Claim("sub", userId)]
  {
    r := auth.Refresh(RefreshTokenRequest(None, userId), now, randomBytes);
  }

  /** With the intended check, the same request is refused and nothing changes. */
  method NullRefreshTokenRejected(auth: AuthService, userId: string, now: DateTime, randomBytes: seq<Base64.byte>)
    returns (r: AuthResult)
    requires auth.Valid() && userId in auth.db.users && |randomBytes| == 64
    modifies auth, auth.db
    ensures r == Failed(InvalidRefreshTokenMessage)
  {
    r := auth.RefreshWithStoredToken(RefreshTokenRequest(None, userId), now, randomBytes);
  }
}

=== FILE: base64.dfy ===
/**
 * Base 64 encoding as defined in section 4 of RFC 4648 (the alphabet `A–Z a–z 0–9 + /`
 * with `=` padding), which is what `Convert.ToBase64String` produces, together with the
 * decoder that inverts it.
 */
module Base64 {
  import opened Wrappers

  newtype byte = x: int | 0 <= x < 256

  /** The character for a 6-bit value (Table 1 of RFC 4648). */
  function Sextet(v: int): (c: char)
    requires 0 <= v < 64
    ensures IsAlphabet(c)
  {
    if v < 26 then ('A' as int + v) as char
    else if v < 52 then ('a' as int + (v - 26)) as char
    else if v < 62 then ('0' as int + (v - 52)) as char
    else if v == 62 then '+'
    else '/'
  }

  predicate IsAlphabet(c: char)
  {
    'A' <= c <= 'Z' || 'a' <= c <= 'z' || '0' <= c <= '9' || c == '+' || c == '/'
  }

  /** The 6-bit value of an alphabet character. */
  function SextetValue(c: char): (v: int)
    requires IsAlphabet(c)
    ensures 0 <= v < 64 && Sextet(v) == c
  {
    if 'A' <= c <= 'Z' then c as int - 'A' as int
    else if 'a' <= c <= 'z' then c as int - 'a' as int + 26
    else if '0' <= c <= '9' then c as int - '0' as int + 52
    else if c == '+' then 62
    else 63
  }

  lemma SextetRoundTrip(v: int)
    requires 0 <= v < 64
    ensures SextetValue(Sextet(v)) == v
  {
  }

  /** Number of `=` characters that end the encoding of `n` bytes. */
  function PaddingLength(n: nat): nat
  {
    if n % 3 == 0 then 0 else 3 - n % 3
  }

  /** The four characters for three bytes: their 24 bits cut into four 6-bit values. */
  function EncodeGroup(b0: byte, b1: byte, b2: byte): (s: string)
    ensures |s| == 4 && forall i :: 0 <= i < 4 ==> IsAlphabet(s[i])
  {
    var x0, x1, x2 := b0 as int, b1 as int, b2 as int;
    [Sextet(x0 / 4), Sextet((x0 % 4) * 16 + x1 / 16), Sextet((x1 % 16) * 4 + x2 / 64), Sextet(x2 % 64)]
  }

  /** The four characters for a final single byte: two 6-bit values and two `=`. */
  function EncodeOne(b0: byte): (s: string)
    ensures |s| == 4 && IsAlphabet(s[0]) && IsAlphabet(s[1]) && s[2] == '=' && s[3] == '='
  {
    var x0 := b0 as int;
    [Sextet(x0 / 4), Sextet((x0 % 4) * 16), '=', '=']
  }

  /** The four characters for two final bytes: three 6-bit values and one `=`. */
  function EncodeTwo(b0: byte, b1: byte): (s: string)
    ensures |s| == 4 && IsAlphabet(s[0]) && IsAlphabet(s[1]) && IsAlphabet(s[2]) && s[3] == '='
  {
    var x0, x1 := b0 as int, b1 as int;
    [Sextet(x0 / 4), Sextet((x0 % 4) * 16 + x1 / 16), Sextet((x1 % 16) * 4), '=']
  }

  /** `Convert.ToBase64String`: every 3 bytes become 4 characters; a final 1 or 2 bytes are padded with `=`. */
  function Encode(b: seq<byte>): (s: string)
    ensures |s| == 4 * ((|b| + 2) / 3)
    ensures forall i :: 0 <= i < |s| - PaddingLength(|b|) ==> IsAlphabet(s[i])
    ensures forall i :: |s| - PaddingLength(|b|) <= i < |s| ==> s[i] == '='
  {
    if |b| == 0 then []
    else if |b| == 1 then EncodeOne(b[0])
    else if |b| == 2 then EncodeTwo(b[0], b[1])
    else
      var rest := Encode(b[3..]);
      GroupCount(|b|);
      assert PaddingLength(|b|) <= |rest| by {
        if |b[3..]| > 0 {
          assert |rest| >= 4;
        }
      }
      GroupThenRest(EncodeGroup(b[0], b[1], b[2]), rest, PaddingLength(|b|));
      EncodeGroup(b[0], b[1], b[2]) + rest
  }

  /** Three bytes fewer: one group of four characters fewer, and the same padding. */
  lemma GroupCount(n: nat)
    requires n >= 3
    ensures 4 * ((n + 2) / 3) == 4 + 4 * ((n - 3 + 2) / 3)
    ensures PaddingLength(n - 3) == PaddingLength(n)
  {
  }

  /** Four alphabet characters in front of an encoding keep its padding at the end. */
  lemma GroupThenRest(g: string, rest: string, p: nat)
    requires |g| == 4 && forall i :: 0 <= i < 4 ==> IsAlphabet(g[i])
    requires p <= |rest|
    requires forall i :: 0 <= i < |rest| - p ==> IsAlphabet(rest[i])
    requires forall i :: |rest| - p <= i < |rest| ==> rest[i] == '='
    ensures forall i :: 0 <= i < |g + rest| - p ==> IsAlphabet((g + rest)[i])
    ensures forall i :: |g + rest| - p <= i < |g + rest| ==> (g + rest)[i] == '='
  {
    var s := g + rest;
    assert forall i :: 4 <= i < |s| ==> s[i] == rest[i - 4];
  }

  /** The three bytes carried by four alphabet characters. */
  function DecodeGroup(v0: int, v1: int, v2: int, v3: int): (r: seq<byte>)
    requires 0 <= v0 < 64 && 0 <= v1 < 64 && 0 <= v2 < 64 && 0 <= v3 < 64
    ensures |r| == 3
  {
    [(v0 * 4 + v1 / 16) as byte, ((v1 % 16) * 16 + v2 / 4) as byte, ((v2 % 4) * 64 + v3) as byte]
  }

  /** The single byte carried by two characters followed by `==`. */
  function DecodeOne(v0: int, v1: int): (r: seq<byte>)
    requires 0 <= v0 < 64 && 0 <= v1 < 64
    ensures |r| == 1
  {
    [(v0 * 4 + v1 / 16) as byte]
  }

  /** The two bytes carried by three characters followed by `=`. */
  function DecodeTwo(v0: int, v1: int, v2: int): (r: seq<byte>)
    requires 0 <= v0 < 64 && 0 <= v1 < 64 && 0 <= v2 < 64
    ensures |r| == 2
  {
    [(v0 * 4 + v1 / 16) as byte, ((v1 % 16) * 16 + v2 / 4) as byte]
  }

  /** `Convert.FromBase64String` on unbroken input: `None` where the input is not well formed. */
  function Decode(s: string): (r: Option<seq<byte>>)
  {
    if |s| == 0 then Some([])
    else if |s| < 4 || !IsAlphabet(s[0]) || !IsAlphabet(s[1]) then None
    else
      var v0, v1 := SextetValue(s[0]), SextetValue(s[1]);
      if |s| == 4 && s[2] == '=' && s[3] == '=' then Some(DecodeOne(v0, v1))
      else if !IsAlphabet(s[2]) then None
      else
        var v2 := SextetValue(s[2]);
        if |s| == 4 && s[3] == '=' then Some(DecodeTwo(v0, v1, v2))
        else if !IsAlphabet(s[3]) then None
        else
          match Decode(s[4..])
          case None => None
          case Some(rest) => Some(DecodeGroup(v0, v1, v2, SextetValue(s[3])) + rest)
  }

  lemma OneByteRoundTrip(b0: int)
    requires 0 <= b0 < 256
    ensures ((b0 / 4) * 4 + ((b0 % 4) * 16) / 16) == b0
  {
  }

  lemma TwoBytesRoundTrip(b0: int, b1: int)
    requires 0 <= b0 < 256 && 0 <= b1 < 256
    ensures (b0 / 4) * 4 + ((b0 % 4) * 16 + b1 / 16) / 16 == b0
    ensures (((b0 % 4) * 16 + b1 / 16) % 16) * 16 + ((b1 % 16) * 4) / 4 == b1
  {
  }

  lemma ThirdByteRoundTrip(b1: int, b2: int)
    requires 0 <= b1 < 256 && 0 <= b2 < 256
    ensures (((b1 % 16) * 4 + b2 / 64) % 4) * 64 + b2 % 64 == b2
  {
  }

  /** A group of four characters decodes to its three bytes. */
  lemma GroupRoundTrip(b0: byte, b1: byte, b2: byte)
    ensures var g := EncodeGroup(b0, b1, b2);
      DecodeGroup(SextetValue(g[0]), SextetValue(g[1]), SextetValue(g[2]), SextetValue(g[3])) == [b0, b1, b2]
  {
    var x0, x1, x2 := b0 as int, b1 as int, b2 as int;
    var v0, v1, v2, v3 := x0 / 4, (x0 % 4) * 16 + x1 / 16, (x1 % 16) * 4 + x2 / 64, x2 % 64;
    var g := EncodeGroup(b0, b1, b2);
    assert g == [Sextet(v0), Sextet(v1), Sextet(v2), Sextet(v3)];
    SextetRoundTrip(v0);
    SextetRoundTrip(v1);
    SextetRoundTrip(v2);
    SextetRoundTrip(v3);
    TwoBytesRoundTrip(x0, x1);
    ThirdByteRoundTrip(x1, x2);
    assert DecodeGroup(v0, v1, v2, v3) == [b0, b1, b2];
  }

  lemma DecodeEncodeOne(b0: byte)
    ensures var g := EncodeOne(b0); DecodeOne(SextetValue(g[0]), SextetValue(g[1])) == [b0]
  {
    var x0 := b0 as int;
    SextetRoundTrip(x0 / 4);
    SextetRoundTrip((x0 % 4) * 16);
    OneByteRoundTrip(x0);
  }

  lemma DecodeEncodeTwo(b0: byte, b1: byte)
    ensures var g := EncodeTwo(b0, b1);
      DecodeTwo(SextetValue(g[0]), SextetValue(g[1]), SextetValue(g[2])) == [b0, b1]
  {
    var x0, x1 := b0 as int, b1 as int;
    SextetRoundTrip(x0 / 4);
    SextetRoundTrip((x0 % 4) * 16 + x1 / 16);
    SextetRoundTrip((x1 % 16) * 4);
    TwoBytesRoundTrip(x0, x1);
  }

  lemma EncodeUnfold(b: seq<byte>)
    requires |b| >= 3
    ensures var g := EncodeGroup(b[0], b[1], b[2]);
      Encode(b) == [g[0], g[1], g[2], g[3]] + Encode(b[3..])
  {
    var g := EncodeGroup(b[0], b[1], b[2]);
    assert g == [g[0], g[1], g[2], g[3]];
  }

  /** One group of three bytes in front of bytes that round-trip also round-trips. */
  lemma DecodeEncodeStep(b: seq<byte>)
    requires |b| >= 3 && Decode(Encode(b[3..])) == Some(b[3..])
    ensures Decode(Encode(b)) == Some(b)
  {
    var g := EncodeGroup(b[0], b[1], b[2]);
    EncodeUnfold(b);
    DecodeGroupPrefix(g[0], g[1], g[2], g[3], Encode(b[3..]));
    GroupRoundTrip(b[0], b[1], b[2]);
    SplitThree(b);
  }

  lemma SplitThree(b: seq<byte>)
    requires |b| >= 3
    ensures [b[0], b[1], b[2]] + b[3..] == b
  {
  }

  /** A final single byte decodes back. */
  lemma DecodeEncodedOne(b0: byte)
    ensures Decode(EncodeOne(b0)) == Some([b0])
  {
    var g := EncodeOne(b0);
    DecodeEncodeOne(b0);
    assert |g| == 4 && g[2] == '=' && g[3] == '=';
  }

  /** Two final bytes decode back. */
  lemma DecodeEncodedTwo(b0: byte, b1: byte)
    ensures Decode(EncodeTwo(b0, b1)) == Some([b0, b1])
  {
    var g := EncodeTwo(b0, b1);
    DecodeEncodeTwo(b0, b1);
    assert |g| == 4 && g[2] != '=' && g[3] == '=';
  }

  lemma DecodeEncodeShort(b: seq<byte>)
    requires 1 <= |b| <= 2
    ensures Decode(Encode(b)) == Some(b)
  {
    if |b| == 1 {
      assert b == [b[0]];
      assert Encode(b) == EncodeOne(b[0]);
      DecodeEncodedOne(b[0]);
    } else {
      assert b == [b[0], b[1]];
      assert Encode(b) == EncodeTwo(b[0], b[1]);
      DecodeEncodedTwo(b[0], b[1]);
    }
  }

  /** Decoding an encoding gives back the bytes. */
  lemma {:induction false} DecodeEncode(b: seq<byte>)
    ensures Decode(Encode(b)) == Some(b)
    decreases |b|
  {
    if 1 <= |b| <= 2 {
      DecodeEncodeShort(b);
    } else if |b| >= 3 {
      DecodeEncode(b[3..]);
      DecodeEncodeStep(b);
    }
  }

  /** Four alphabet characters in front of a string decode to one group in front of its decoding. */
  lemma DecodeGroupPrefix(c0: char, c1: char, c2: char, c3: char, t: string)
    requires IsAlphabet(c0) && IsAlphabet(c1) && IsAlphabet(c2) && IsAlphabet(c3)
    ensures Decode([c0, c1, c2, c3] + t)
         == match Decode(t)
            case None => None
            case Some(rest) =>
              Some(DecodeGroup(SextetValue(c0), SextetValue(c1), SextetValue(c2), SextetValue(c3)) + rest)
  {
    var s := [c0, c1, c2, c3] + t;
    assert s[0] == c0 && s[1] == c1 && s[2] == c2 && s[3] == c3;
    assert s[4..] == t;
  }
}

=== FILE: database.dfy ===
/**
 * The service's store: the identity directory of users, the table of authentication
 * tokens, and the four profile tables. Every profile table has `UserId` as its primary key,
 * so each is a map from user id to the one row of that user.
 */
module Database {
  import opened Wrappers
  import opened Dates
  import opened Entities

  /** An identity user. Its id, user name and e-mail are fixed when it is created. */
  class User {
    const id: string
    const userName: string
    const email: Option<string>
    var passwordHash: string
    var phoneNumber: Option<string>
    var birthDate: Option<DateTime>
    var sex: Option<string>

    constructor (id: string, userName: string, email: Option<string>, passwordHash: string,
                 phoneNumber: Option<string>, birthDate: Option<DateTime>, sex: Option<string>)
      ensures this.id == id && this.userName == userName && this.email == email
      ensures this.passwordHash == passwordHash && this.phoneNumber == phoneNumber
      ensures this.birthDate == birthDate && this.sex == sex
    {
      this.id, this.userName, this.email := id, userName, email;
      this.passwordHash, this.phoneNumber, this.birthDate, this.sex := passwordHash, phoneNumber, birthDate, sex;
    }
  }

  /** The refresh token's login provider and token name in the token table. */
  const RefreshLoginProvider: string := "RencardRefresh"
  const RefreshTokenName: string := "refresh_token"

  /** Each user is stored under its id, and no two users share an e-mail. */
  ghost predicate UsersKeyed(users: map<string, User>)
  {
    && (forall id :: id in users ==> users[id].id == id)
    && (forall a, b :: a in users && b in users && users[a].email.Some? && users[a].email == users[b].email ==> a == b)
  }

  /** Each row is stored under the id of its user, who is one of `owners`. */
  ghost predicate AboutKeyed(table: map<string, AboutUser>, owners: set<string>)
  {
    (forall id :: id in table ==> table[id].userId == id) && table.Keys <= owners
  }

  ghost predicate PreferencesKeyed(table: map<string, UserPreferences>, owners: set<string>)
  {
    (forall id :: id in table ==> table[id].userId == id) && table.Keys <= owners
  }

  ghost predicate LocationsKeyed(table: map<string, UserLocation>, owners: set<string>)
  {
    (forall id :: id in table ==> table[id].userId == id) && table.Keys <= owners
  }

  ghost predicate PhotosKeyed(table: map<string, UserPhoto>, owners: set<string>)
  {
    (forall id :: id in table ==> table[id].userId == id) && table.Keys <= owners
  }

  class RencardDb {
    /** The users, by id. */
    var users: map<string, User>
    /** The token table rows for provider `RencardRefresh` and name `refresh_token`, by user id. */
    var refreshTokens: map<string, string>
    var aboutUsers: map<string, AboutUser>
    var userPreferences: map<string, UserPreferences>
    var userLocations: map<string, UserLocation>
    var userPhotos: map<string, UserPhoto>

    /** An empty store. */
    constructor ()
      ensures Valid()
      ensures users == map[] && refreshTokens == map[]
      ensures aboutUsers == map[] && userPreferences == map[] && userLocations == map[] && userPhotos == map[]
    {
      users, refreshTokens := map[], map[];
      aboutUsers, userPreferences, userLocations, userPhotos := map[], map[], map[], map[];
    }

    /**
     * Keys are the ids of the rows they lead to, no two users share an e-mail (the directory
     * is configured to require unique e-mails), and every row belongs to a user.
     */
    ghost predicate Valid()
      reads this
    {
      && UsersKeyed(users)
      && refreshTokens.Keys <= users.Keys
      && AboutKeyed(aboutUsers, users.Keys)
      && PreferencesKeyed(userPreferences, users.Keys)
      && LocationsKeyed(userLocations, users.Keys)
      && PhotosKeyed(userPhotos, users.Keys)
    }

    /** Some user has this e-mail. */
    predicate EmailTaken(email: string)
      reads this
    {
      exists id | id in users :: users[id].email == Some(email)
    }

    /** Some user has this user name. */
    predicate UserNameTaken(userName: string)
      reads this
    {
      exists id | id in users :: users[id].userName == userName
    }

    /** The user with this e-mail. */
    ghost function UserWithEmail(email: string): (u: User)
      reads this
      requires EmailTaken(email)
      ensures u in users.Values && u.email == Some(email)
    {
      var id :| id in users && users[id].email == Some(email);
      users[id]
    }

    /** `Users.AnyAsync(u => u.PhoneNumber == phone)`: a `null` phone matches users without one. */
    predicate PhoneInUse(phone: Option<string>)
      reads this, users.Values
    {
      exists id | id in users :: users[id].phoneNumber == phone
    }

    /** The stored refresh token of a user, as `GetAuthenticationTokenAsync` returns it. */
    function StoredRefreshToken(userId: string): Option<string>
      reads this
    {
      if userId in refreshTokens then Some(refreshTokens[userId]) else None
    }

    /** `AboutUsers.Add(row)` for a user who has no such row. */
    method AddAboutUser(row: AboutUser)
      requires Valid() && row.userId in users && row.userId !in aboutUsers
      modifies this
      ensures Valid()
      ensures aboutUsers == old(aboutUsers)[row.userId := row]
      ensures users == old(users) && refreshTokens == old(refreshTokens)
      ensures userPreferences == old(userPreferences) && userLocations == old(userLocations) && userPhotos == old(userPhotos)
    {
      aboutUsers := aboutUsers[row.userId := row];
    }

    /** `UserPreferences.Add(row)` for a user who has no such row. */
    method AddUserPreferences(row: UserPreferences)
      requires Valid() && row.userId in users && row.userId !in userPreferences
      modifies this
      ensures Valid()
      ensures userPreferences == old(userPreferences)[row.userId := row]
      ensures users == old(users) && refreshTokens == old(refreshTokens)
      ensures aboutUsers == old(aboutUsers) && userLocations == old(userLocations) && userPhotos == old(userPhotos)
    {
      userPreferences := userPreferences[row.userId := row];
    }

    /** `UserLocations.Add(row)` for a user who has no such row. */
    method AddUserLocation(row: UserLocation)
      requires Valid() && row.userId in users && row.userId !in userLocations
      modifies this
      ensures Valid()
      ensures userLocations == old(userLocations)[row.userId := row]
      ensures users == old(users) && refreshTokens == old(refreshTokens)
      ensures aboutUsers == old(aboutUsers) && userPreferences == old(userPreferences) && userPhotos == old(userPhotos)
    {
      userLocations := userLocations[row.userId := row];
    }

    /** `UserPhotos.Add(row)` for a user who has no such row. */
    method AddUserPhoto(row: UserPhoto)
      requires Valid() && row.userId in users && row.userId !in userPhotos
      modifies this
      ensures Valid()
      ensures userPhotos == old(userPhotos)[row.userId := row]
      ensures users == old(users) && refreshTokens == old(refreshTokens)
      ensures aboutUsers == old(aboutUsers) && userPreferences == old(userPreferences) && userLocations == old(userLocations)
    {
      userPhotos := userPhotos[row.userId := row];
    }

    /**
     * The four `Add` calls of a new user's profile followed by one `SaveChangesAsync`: one
     * row in each profile table, all for the same user, who has none yet.
     */
    method AddProfileRows(about: AboutUser, prefs: UserPreferences, loc: UserLocation, photo: UserPhoto)
      requires Valid() && about.userId in users
      requires prefs.userId == about.userId && loc.userId == about.userId && photo.userId == about.userId
      requires about.userId !in aboutUsers && about.userId !in userPreferences
      requires about.userId !in userLocations && about.userId !in userPhotos
      modifies this
      ensures Valid()
      ensures aboutUsers == old(aboutUsers)[about.userId := about]
      ensures userPreferences == old(userPreferences)[about.userId := prefs]
      ensures userLocations == old(userLocations)[about.userId := loc]
      ensures userPhotos == old(userPhotos)[about.userId := photo]
      ensures users == old(users) && refreshTokens == old(refreshTokens)
    {
      userPreferences := userPreferences[prefs.userId := prefs];
      userLocations := userLocations[loc.userId := loc];
      aboutUsers := aboutUsers[about.userId := about];
      userPhotos := userPhotos[photo.userId := photo];
    }

    /**
     * `RemoveAuthenticationTokenAsync` followed by `SetAuthenticationTokenAsync` for the
     * refresh token of `userId`: the old row goes and a row with `value` takes its place.
     */
    method ReplaceRefreshToken(userId: string, value: string)
      requires Valid() && userId in users
      modifies this
      ensures Valid()
      ensures refreshTokens == old(refreshTokens)[userId := value]
      ensures users == old(users) && ProfileTables() == old(ProfileTables())
    {
      refreshTokens := refreshTokens - {userId};
      refreshTokens := refreshTokens[userId := value];
    }

    /** The four profile tables together. */
    ghost function ProfileTables()
      : (map<string, AboutUser>, map<string, UserPreferences>, map<string, UserLocation>, map<string, UserPhoto>)
      reads this
    {
      (aboutUsers, userPreferences, userLocations, userPhotos)
    }
  }

  /** A profile table's rows, seen as transfer records. */
  function AboutView(table: map<string, AboutUser>): map<string, AboutDto>
    reads table.Values
  {
    map id | id in table :: table[id].ToDto()
  }

  function PreferencesView(table: map<string, UserPreferences>): map<string, PreferencesDto>
    reads table.Values
  {
    map id | id in table :: table[id].ToDto()
  }

  function LocationView(table: map<string, UserLocation>): map<string, LocationDto>
    reads table.Values
  {
    map id | id in table :: table[id].ToDto()
  }

  /** Adding a row for a new key adds its record to the view and changes no other. */
  lemma AboutViewInsert(table: map<string, AboutUser>, id: string, row: AboutUser)
    requires id !in table
    ensures AboutView(table[id := row]) == AboutView(table)[id := row.ToDto()]
  {
  }

  lemma PreferencesViewInsert(table: map<string, UserPreferences>, id: string, row: UserPreferences)
    requires id !in table
    ensures PreferencesView(table[id := row]) == PreferencesView(table)[id := row.ToDto()]
  {
  }

  lemma LocationViewInsert(table: map<string, UserLocation>, id: string, row: UserLocation)
    requires id !in table
    ensures LocationView(table[id := row]) == LocationView(table)[id := row.ToDto()]
  {
  }
}

=== FILE: dates.dfy ===
/**
 * The proleptic Gregorian calendar of .NET's `DateTime`, reduced to what the core uses:
 * calendar dates, a time of day in 100-ns ticks, ordering, `AddYears`, `.Date`,
 * `DateTime.Today` and adding a `TimeSpan` for expiry times.
 */
module Dates {

  /** 100-nanosecond ticks in one day, the unit of `DateTime.Ticks` and `TimeSpan.Ticks`. */
  const TicksPerDay: int := 864_000_000_000

  predicate IsLeapYear(y: int)
  {
    y % 4 == 0 && (y % 100 != 0 || y % 400 == 0)
  }

  function DaysInMonth(y: int, m: int): (n: int)
    requires 1 <= m <= 12
    ensures 28 <= n <= 31
    ensures n == 29 <==> m == 2 && IsLeapYear(y)
  {
    if m == 2 then (if IsLeapYear(y) then 29 else 28)
    else if m == 4 || m == 6 || m == 9 || m == 11 then 30
    else 31
  }

  datatype YearMonthDay = YearMonthDay(year: int, month: int, day: int)

  /** A calendar date that exists. */
  type Date = d: YearMonthDay | 1 <= d.month <= 12 && 1 <= d.day <= DaysInMonth(d.year, d.month)
    witness YearMonthDay(1, 1, 1)

  /** Time elapsed since midnight, in ticks. */
  type TimeOfDay = t: int | 0 <= t < TicksPerDay

  /** A `DateTime`: a date and a time of day. `DateTimeKind` is not modelled (comparison ignores it). */
  datatype DateTime = DateTime(date: Date, time: TimeOfDay)

  /** The default `DateTime`, 0001-01-01 00:00. */
  const MinValue: DateTime := DateTime(YearMonthDay(1, 1, 1), 0)

  /** `a < b` on dates. */
  predicate DateLess(a: Date, b: Date)
  {
    || a.year < b.year
    || (a.year == b.year && (a.month < b.month || (a.month == b.month && a.day < b.day)))
  }

  /** `a > b` on `DateTime` values: the later instant. */
  predicate Later(a: DateTime, b: DateTime)
  {
    DateLess(b.date, a.date) || (a.date == b.date && a.time > b.time)
  }

  /** The `.Date` property, and `DateTime.Today` for today's date: midnight of that date. */
  function Midnight(d: Date): (r: DateTime)
    ensures r.date == d && r.time == 0
  {
    DateTime(d, 0)
  }

  /**
   * `AddYears(n)` on a date: the same month and day `n` years on, except that
   * 29 February becomes 28 February in a year that is not a leap year.
   */
  function AddYears(d: Date, n: int): (r: Date)
    ensures r.year == d.year + n && r.month == d.month
    ensures r.day == d.day || (d.month == 2 && d.day == 29 && r.day == 28 && !IsLeapYear(r.year))
  {
    var y := d.year + n;
    YearMonthDay(y, d.month, if d.month == 2 && d.day == 29 && !IsLeapYear(y) then 28 else d.day)
  }

  /** `AddYears(n)` on a `DateTime`: the time of day is kept. */
  function AddYearsAt(t: DateTime, n: int): (r: DateTime)
    ensures r.date == AddYears(t.date, n) && r.time == t.time
  {
    DateTime(AddYears(t.date, n), t.time)
  }

  /** The following calendar day. */
  function NextDay(d: Date): (r: Date)
    ensures DateLess(d, r)
  {
    if d.day < DaysInMonth(d.year, d.month) then YearMonthDay(d.year, d.month, d.day + 1)
    else if d.month < 12 then YearMonthDay(d.year, d.month + 1, 1)
    else YearMonthDay(d.year + 1, 1, 1)
  }

  /** Days before the first of `month` in `year`. */
  function DaysBeforeMonth(year: int, month: int): nat
    requires 1 <= month <= 12
  {
    if month == 1 then 0 else DaysBeforeMonth(year, month - 1) + DaysInMonth(year, month - 1)
  }

  /** Days from 0001-01-01 to the date. */
  function DayNumber(d: Date): int
  {
    var y := d.year - 1;
    365 * y + y / 4 - y / 100 + y / 400 + DaysBeforeMonth(d.year, d.month) + d.day - 1
  }

  /** `DateTime.Ticks`. */
  function Ticks(t: DateTime): int
  {
    DayNumber(t.date) * TicksPerDay + t.time
  }

  /** `t.Add(span)` read as an instant in ticks, the form in which expiry times are kept. */
  function AddTicks(t: DateTime, span: int): int
  {
    Ticks(t) + span
  }
}

=== FILE: endpoints.dfy ===
/**
 * The handlers `MapIdentityEndpoints` registers: `PUT /user-phone-sex-age`,
 * `POST /initialize-profile` and `PUT /me`. `caller` is the user id carried by the request's
 * principal (`None` for none), which `GetUserAsync` looks up; `now` is the clock.
 */
module IdentityEndpoints {
  import opened Wrappers
  import opened Dates
  import opened Entities
  import opened Database

  /** The `IResult`s the handlers return. */
  datatype HttpResult =
    | Ok
    | OkMessage(message: string)
    | BadRequest(message: string)
    | BadRequestMessages(messages: seq<string>)
    | Unauthorized
    | NoContent
    | InternalServerError

  /** The request record of `PUT /user-phone-sex-age`; the strings can be `null`. */
  datatype PhoneSexAgeRequest = PhoneSexAgeRequest(birthDate: DateTime, sex: Option<string>, phoneNumber: Option<string>)

  /** The request record of `PUT /me`; each part can be `null`. */
  datatype ProfileUpdateRequest = ProfileUpdateRequest(
    about: Option<AboutDto>, location: Option<LocationDto>, preferences: Option<PreferencesDto>)

  const PhoneInUseMessage: string := "Phone number is already in use"
  const ProfileInitializedMessage: string := "Profile initialized"

  /** `GetUserAsync` finds a user for the caller. */
  predicate Resolves(db: RencardDb, caller: Option<string>)
    reads db
  {
    caller.Some? && caller.value in db.users
  }

  /**
   * `PUT /user-phone-sex-age`. `validationErrors` are the messages `TryValidateObject`
   * reports for the request. The phone check counts every user, the caller included, and
   * compares `null` with users who have no phone. The identity update is taken to succeed.
   */
  method PutUserPhoneSexAge(db: RencardDb, caller: Option<string>, request: PhoneSexAgeRequest,
                            validationErrors: seq<string>)
    returns (r: HttpResult)
    requires db.Valid()
    modifies if Resolves(db, caller) then {db.users[caller.value]} else {}
    ensures validationErrors != [] ==> r == BadRequestMessages(validationErrors)
    ensures validationErrors == [] && !Resolves(db, caller) ==> r == Unauthorized
    ensures validationErrors == [] && Resolves(db, caller) ==>
      var user := db.users[caller.value];
      && (old(db.PhoneInUse(request.phoneNumber)) ==> r == BadRequest(PhoneInUseMessage))
      && (old(user.phoneNumber) == request.phoneNumber ==> r == BadRequest(PhoneInUseMessage))
      && (!old(db.PhoneInUse(request.phoneNumber)) ==>
            && r == Ok
            && user.phoneNumber == request.phoneNumber && user.sex == request.sex
            && user.birthDate == Some(request.birthDate) && user.passwordHash == old(user.passwordHash))
    ensures r != Ok ==> unchanged(db.users.Values)
  {
    if validationErrors != [] {
      return BadRequestMessages(validationErrors);
    }

    if !Resolves(db, caller) {
      return Unauthorized;
    }
    var user := db.users[caller.value];

    if db.PhoneInUse(request.phoneNumber) {
      return BadRequest(PhoneInUseMessage);
    }

    user.phoneNumber := request.phoneNumber;
    user.sex := request.sex;
    user.birthDate := Some(request.birthDate);
    return Ok;
  }

  /**
   * What `POST /initialize-profile` does to one table, compared with `before`: a row for
   * `userId` that was there stays as it was; otherwise a new row with the entity's defaults
   * is added, and the table is otherwise unchanged.
   */
  ghost predicate AboutInitialized(table: map<string, AboutUser>, before: map<string, AboutUser>, userId: string)
    reads table.Values
  {
    && userId in table && table == before[userId := table[userId]]
    && (userId in before ==> table == before)
    && (userId !in before ==> table[userId].ToDto() == DefaultAbout)
  }

  ghost predicate PreferencesInitialized(
    table: map<string, UserPreferences>, before: map<string, UserPreferences>, userId: string)
    reads table.Values
  {
    && userId in table && table == before[userId := table[userId]]
    && (userId in before ==> table == before)
    && (userId !in before ==> table[userId].ToDto() == DefaultPreferences)
  }

  /** A new location row is at the point `(0, 0)` of WGS 84, stamped with the clock. */
  ghost predicate LocationInitialized(
    table: map<string, UserLocation>, before: map<string, UserLocation>, userId: string, now: DateTime)
    reads table.Values
  {
    && userId in table && table == before[userId := table[userId]]
    && (userId in before ==> table == before)
    && (userId !in before ==>
          table[userId].geography == Some(Point(ZeroCoord, ZeroCoord, Wgs84)) && table[userId].lastUpdated == now)
  }

  /** A new photo row has no picture and is stamped with the clock. */
  ghost predicate PhotoInitialized(
    table: map<string, UserPhoto>, before: map<string, UserPhoto>, userId: string, now: DateTime)
    reads table.Values
  {
    && userId in table && table == before[userId := table[userId]]
    && (userId in before ==> table == before)
    && (userId !in before ==> table[userId].blobUrl == None && table[userId].uploadedAt == now)
  }

  /** The four tables after `POST /initialize-profile`, compared with `before`. */
  ghost predicate RowsInitialized(
    db: RencardDb,
    before: (map<string, AboutUser>, map<string, UserPreferences>, map<string, UserLocation>, map<string, UserPhoto>),
    userId: string, now: DateTime)
    reads db, db.aboutUsers.Values, db.userPreferences.Values, db.userLocations.Values, db.userPhotos.Values
  {
    && AboutInitialized(db.aboutUsers, before.0, userId)
    && PreferencesInitialized(db.userPreferences, before.1, userId)
    && LocationInitialized(db.userLocations, before.2, userId, now)
    && PhotoInitialized(db.userPhotos, before.3, userId, now)
  }

  /** The caller's `AboutUsers` row is added with the defaults when it is missing. */
  method InitializeAbout(db: RencardDb, id: string)
    requires db.Valid() && id in db.users
    modifies db
    ensures db.Valid() && AboutInitialized(db.aboutUsers, old(db.aboutUsers), id)
    ensures id !in old(db.aboutUsers) ==> fresh(db.aboutUsers[id])
    ensures db.users == old(db.users) && db.refreshTokens == old(db.refreshTokens)
    ensures db.userPreferences == old(db.userPreferences) && db.userLocations == old(db.userLocations)
    ensures db.userPhotos == old(db.userPhotos)
  {
    if id !in db.aboutUsers {
      var about := new AboutUser(id);
      db.AddAboutUser(about);
    }
  }

  /** The caller's `UserPreferences` row is added with the defaults when it is missing. */
  method InitializePreferences(db: RencardDb, id: string)
    requires db.Valid() && id in db.users
    modifies db
    ensures db.Valid() && PreferencesInitialized(db.userPreferences, old(db.userPreferences), id)
    ensures id !in old(db.userPreferences) ==> fresh(db.userPreferences[id])
    ensures db.users == old(db.users) && db.refreshTokens == old(db.refreshTokens)
    ensures db.aboutUsers == old(db.aboutUsers) && db.userLocations == old(db.userLocations)
    ensures db.userPhotos == old(db.userPhotos)
  {
    if id !in db.userPreferences {
      var prefs := new UserPreferences(id);
      db.AddUserPreferences(prefs);
    }
  }

  /** The caller's `UserLocations` row is added at the point `(0, 0)` of WGS 84 when it is missing. */
  method InitializeLocation(db: RencardDb, id: string, now: DateTime)
    requires db.Valid() && id in db.users
    modifies db
    ensures db.Valid() && LocationInitialized(db.userLocations, old(db.userLocations), id, now)
    ensures id !in old(db.userLocations) ==> fresh(db.userLocations[id])
    ensures db.users == old(db.users) && db.refreshTokens == old(db.refreshTokens)
    ensures db.aboutUsers == old(db.aboutUsers) && db.userPreferences == old(db.userPreferences)
    ensures db.userPhotos == old(db.userPhotos)
  {
    if id !in db.userLocations {
      var loc := new UserLocation(id, now);
      loc.geography := Some(Point(ZeroCoord, ZeroCoord, Wgs84));
      db.AddUserLocation(loc);
    }
  }

  /** The caller's `UserPhotos` row is added, without a picture, when it is missing. */
  method InitializePhoto(db: RencardDb, id: string, now: DateTime)
    requires db.Valid() && id in db.users
    modifies db
    ensures db.Valid() && PhotoInitialized(db.userPhotos, old(db.userPhotos), id, now)
    ensures id !in old(db.userPhotos) ==> fresh(db.userPhotos[id])
    ensures db.users == old(db.users) && db.refreshTokens == old(db.refreshTokens)
    ensures db.aboutUsers == old(db.aboutUsers) && db.userPreferences == old(db.userPreferences)
    ensures db.userLocations == old(db.userLocations)
  {
    if id !in db.userPhotos {
      var photo := new UserPhoto(id, now);
      db.AddUserPhoto(photo);
    }
  }

  /** The about and preferences rows of `POST /initialize-profile`. */
  method InitializeAboutAndPreferences(db: RencardDb, id: string)
    requires db.Valid() && id in db.users
    modifies db
    ensures db.Valid()
    ensures AboutInitialized(db.aboutUsers, old(db.aboutUsers), id)
    ensures PreferencesInitialized(db.userPreferences, old(db.userPreferences), id)
    ensures db.users == old(db.users) && db.refreshTokens == old(db.refreshTokens)
    ensures db.userLocations == old(db.userLocations) && db.userPhotos == old(db.userPhotos)
  {
    InitializeAbout(db, id);
    InitializePreferences(db, id);
  }

  /** The location and photo rows of `POST /initialize-profile`. */
  method InitializeLocationAndPhoto(db: RencardDb, id: string, now: DateTime)
    requires db.Valid() && id in db.users
    modifies db
    ensures db.Valid()
    ensures LocationInitialized(db.userLocations, old(db.userLocations), id, now)
    ensures PhotoInitialized(db.userPhotos, old(db.userPhotos), id, now)
    ensures db.users == old(db.users) && db.refreshTokens == old(db.refreshTokens)
    ensures db.aboutUsers == old(db.aboutUsers) && db.userPreferences == old(db.userPreferences)
  {
    InitializeLocation(db, id, now);
    InitializePhoto(db, id, now);
  }

  /**
   * `POST /initialize-profile`: a default row is added to each profile table where the caller
   * has none; rows that exist are left as they are, so once the caller has all four rows a
   * call changes nothing.
   */
  method InitializeProfile(db: RencardDb, caller: Option<string>, now: DateTime) returns (r: HttpResult)
    requires db.Valid()
    modifies db
    ensures db.Valid()
    ensures old(!Resolves(db, caller)) ==> r == Unauthorized && unchanged(db)
    ensures old(Resolves(db, caller)) ==>
      && r == OkMessage(ProfileInitializedMessage)
      && RowsInitialized(db, old(db.ProfileTables()), caller.value, now)
      && db.users == old(db.users) && db.refreshTokens == old(db.refreshTokens)
    ensures old(Resolves(db, caller)
                && caller.value in db.aboutUsers && caller.value in db.userPreferences
                && caller.value in db.userLocations && caller.value in db.userPhotos) ==>
      db.ProfileTables() == old(db.ProfileTables())
  {
    if !Resolves(db, caller) {
      return Unauthorized;
    }
    var id := caller.value;

    InitializeAboutAndPreferences(db, id);
    InitializeLocationAndPhoto(db, id, now);

    return OkMessage(ProfileInitializedMessage);
  }

  /** `UpdateFrom` on the caller's existing `AboutUsers` row: it reads back as `dto`, other rows as before. */
  method UpdateAboutRow(db: RencardDb, id: string, dto: AboutDto)
    requires db.Valid() && id in db.aboutUsers
    modifies db.aboutUsers[id]
    ensures AboutView(db.aboutUsers) == old(AboutView(db.aboutUsers))[id := dto]
    ensures PreferencesView(db.userPreferences) == old(PreferencesView(db.userPreferences)) && LocationView(db.userLocations) == old(LocationView(db.userLocations))
  {
    db.aboutUsers[id].UpdateFrom(dto);
  }

  /** A new row is saved: the view gains its record. */
  method InsertAboutRow(db: RencardDb, row: AboutUser)
    requires db.Valid() && row.userId in db.users && row.userId !in db.aboutUsers
    modifies db
    ensures db.Valid()
    ensures AboutView(db.aboutUsers) == old(AboutView(db.aboutUsers))[row.userId := row.ToDto()]
    ensures db.users == old(db.users) && db.refreshTokens == old(db.refreshTokens)
    ensures db.userPreferences == old(db.userPreferences) && db.userLocations == old(db.userLocations)
    ensures db.userPhotos == old(db.userPhotos)
  {
    AboutViewInsert(db.aboutUsers, row.userId, row);
    db.AddAboutUser(row);
  }

  /** A new `AboutUsers` row for the caller, built with `UpdateFrom`, is saved. */
  method AddAboutRow(db: RencardDb, id: string, dto: AboutDto)
    requires db.Valid() && id in db.users && id !in db.aboutUsers
    modifies db
    ensures db.Valid()
    ensures AboutView(db.aboutUsers) == old(AboutView(db.aboutUsers))[id := dto]
    ensures db.users == old(db.users) && db.refreshTokens == old(db.refreshTokens)
    ensures db.userPreferences == old(db.userPreferences) && db.userLocations == old(db.userLocations)
    ensures db.userPhotos == old(db.userPhotos)
  {
    var about := new AboutUser(id);
    about.UpdateFrom(dto);
    InsertAboutRow(db, about);
  }

  /**
   * One part of `PUT /me` made to work as evidently intended: the caller's `AboutUsers` row,
   * or a new one when there is none, is overwritten with `dto`.
   */
  method UpsertAbout(db: RencardDb, id: string, dto: AboutDto)
    requires db.Valid() && id in db.users
    modifies db, db.aboutUsers.Values
    ensures db.Valid()
    ensures AboutView(db.aboutUsers) == old(AboutView(db.aboutUsers))[id := dto]
    ensures db.users == old(db.users) && db.refreshTokens == old(db.refreshTokens)
    ensures db.userPreferences == old(db.userPreferences) && db.userLocations == old(db.userLocations)
    ensures db.userPhotos == old(db.userPhotos)
    ensures PreferencesView(db.userPreferences) == old(PreferencesView(db.userPreferences)) && LocationView(db.userLocations) == old(LocationView(db.userLocations))
  {
    if id in db.aboutUsers {
      UpdateAboutRow(db, id, dto);
    } else {
      AddAboutRow(db, id, dto);
    }
  }

  method UpdatePreferencesRow(db: RencardDb, id: string, dto: PreferencesDto)
    requires db.Valid() && id in db.userPreferences
    modifies db.userPreferences[id]
    ensures PreferencesView(db.userPreferences) == old(PreferencesView(db.userPreferences))[id := dto]
    ensures AboutView(db.aboutUsers) == old(AboutView(db.aboutUsers)) && LocationView(db.userLocations) == old(LocationView(db.userLocations))
  {
    db.userPreferences[id].UpdateFrom(dto);
  }

  method InsertPreferencesRow(db: RencardDb, row: UserPreferences)
    requires db.Valid() && row.userId in db.users && row.userId !in db.userPreferences
    modifies db
    ensures db.Valid()
    ensures PreferencesView(db.userPreferences) == old(PreferencesView(db.userPreferences))[row.userId := row.ToDto()]
    ensures db.users == old(db.users) && db.refreshTokens == old(db.refreshTokens)
    ensures db.aboutUsers == old(db.aboutUsers) && db.userLocations == old(db.userLocations)
    ensures db.userPhotos == old(db.userPhotos)
  {
    PreferencesViewInsert(db.userPreferences, row.userId, row);
    db.AddUserPreferences(row);
  }

  /** A new `UserPreferences` row for the caller, built with `UpdateFrom`, is saved. */
  method AddPreferencesRow(db: RencardDb, id: string, dto: PreferencesDto)
    requires db.Valid() && id in db.users && id !in db.userPreferences
    modifies db
    ensures db.Valid()
    ensures PreferencesView(db.userPreferences) == old(PreferencesView(db.userPreferences))[id := dto]
    ensures db.users == old(db.users) && db.refreshTokens == old(db.refreshTokens)
    ensures db.aboutUsers == old(db.aboutUsers) && db.userLocations == old(db.userLocations)
    ensures db.userPhotos == old(db.userPhotos)
  {
    var prefs := new UserPreferences(id);
    prefs.UpdateFrom(dto);
    InsertPreferencesRow(db, prefs);
  }

  /** The caller's `UserPreferences` row, or a new one, is overwritten with `dto`. */
  method UpsertPreferences(db: RencardDb, id: string, dto: PreferencesDto)
    requires db.Valid() && id in db.users
    modifies db, db.userPreferences.Values
    ensures db.Valid()
    ensures PreferencesView(db.userPreferences) == old(PreferencesView(db.userPreferences))[id := dto]
    ensures db.users == old(db.users) && db.refreshTokens == old(db.refreshTokens)
    ensures db.aboutUsers == old(db.aboutUsers) && db.userLocations == old(db.userLocations)
    ensures db.userPhotos == old(db.userPhotos)
    ensures AboutView(db.aboutUsers) == old(AboutView(db.aboutUsers)) && LocationView(db.userLocations) == old(LocationView(db.userLocations))
  {
    if id in db.userPreferences {
      UpdatePreferencesRow(db, id, dto);
    } else {
      AddPreferencesRow(db, id, dto);
    }
  }

  method UpdateLocationRow(db: RencardDb, id: string, dto: LocationDto, now: DateTime)
    requires db.Valid() && id in db.userLocations
    modifies db.userLocations[id]
    ensures LocationView(db.userLocations) == old(LocationView(db.userLocations))[id := dto.(lastUpdated := now)]
    ensures AboutView(db.aboutUsers) == old(AboutView(db.aboutUsers)) && PreferencesView(db.userPreferences) == old(PreferencesView(db.userPreferences))
  {
    db.userLocations[id].UpdateFrom(dto, now);
  }

  method InsertLocationRow(db: RencardDb, row: UserLocation)
    requires db.Valid() && row.userId in db.users && row.userId !in db.userLocations
    modifies db
    ensures db.Valid()
    ensures LocationView(db.userLocations) == old(LocationView(db.userLocations))[row.userId := row.ToDto()]
    ensures db.users == old(db.users) && db.refreshTokens == old(db.refreshTokens)
    ensures db.aboutUsers == old(db.aboutUsers) && db.userPreferences == old(db.userPreferences)
    ensures db.userPhotos == old(db.userPhotos)
  {
    LocationViewInsert(db.userLocations, row.userId, row);
    db.AddUserLocation(row);
  }

  /** A new `UserLocations` row for the caller, built with `UpdateFrom`, is saved. */
  method AddLocationRow(db: RencardDb, id: string, dto: LocationDto, now: DateTime)
    requires db.Valid() && id in db.users && id !in db.userLocations
    modifies db
    ensures db.Valid()
    ensures LocationView(db.userLocations) == old(LocationView(db.userLocations))[id := dto.(lastUpdated := now)]
    ensures db.users == old(db.users) && db.refreshTokens == old(db.refreshTokens)
    ensures db.aboutUsers == old(db.aboutUsers) && db.userPreferences == old(db.userPreferences)
    ensures db.userPhotos == old(db.userPhotos)
  {
    var loc := new UserLocation(id, now);
    loc.UpdateFrom(dto, now);
    InsertLocationRow(db, loc);
  }

  /** The caller's `UserLocations` row, or a new one, is moved to the point of `dto`, stamped with the clock. */
  method UpsertLocation(db: RencardDb, id: string, dto: LocationDto, now: DateTime)
    requires db.Valid() && id in db.users
    modifies db, db.userLocations.Values
    ensures db.Valid()
    ensures LocationView(db.userLocations) == old(LocationView(db.userLocations))[id := dto.(lastUpdated := now)]
    ensures db.users == old(db.users) && db.refreshTokens == old(db.refreshTokens)
    ensures db.aboutUsers == old(db.aboutUsers) && db.userPreferences == old(db.userPreferences)
    ensures db.userPhotos == old(db.userPhotos)
    ensures AboutView(db.aboutUsers) == old(AboutView(db.aboutUsers)) && PreferencesView(db.userPreferences) == old(PreferencesView(db.userPreferences))
  {
    if id in db.userLocations {
      UpdateLocationRow(db, id, dto, now);
    } else {
      AddLocationRow(db, id, dto, now);
    }
  }

  /** Every part of a `PUT /me` request is present. */
  predicate Complete(request: ProfileUpdateRequest)
  {
    request.about.Some? && request.location.Some? && request.preferences.Some?
  }

  /**
   * `PUT /me` as evidently intended: with every part present, the caller's about,
   * preferences and location rows read back as the request (the location stamped with the
   * clock), each created when missing, and nothing else changes; a missing part fails with
   * nothing saved.
   */
  method PutMe(db: RencardDb, caller: Option<string>, request: ProfileUpdateRequest, now: DateTime)
    returns (r: HttpResult)
    requires db.Valid()
    modifies db, db.aboutUsers.Values, db.userPreferences.Values, db.userLocations.Values
    ensures db.Valid()
    ensures old(!Resolves(db, caller)) ==> r == Unauthorized
    ensures old(Resolves(db, caller)) && !Complete(request) ==> r == InternalServerError
    ensures old(Resolves(db, caller)) && Complete(request) ==>
      && r == NoContent
      && AboutView(db.aboutUsers) == old(AboutView(db.aboutUsers))[caller.value := request.about.value]
      && PreferencesView(db.userPreferences) == old(PreferencesView(db.userPreferences))[caller.value := request.preferences.value]
      && LocationView(db.userLocations) == old(LocationView(db.userLocations))[caller.value := request.location.value.(lastUpdated := now)]
      && db.users == old(db.users) && db.refreshTokens == old(db.refreshTokens) && db.userPhotos == old(db.userPhotos)
    ensures r != NoContent ==>
      unchanged(db) && unchanged(db.aboutUsers.Values, db.userPreferences.Values, db.userLocations.Values)
  {
    if !Resolves(db, caller) {
      return Unauthorized;
    }
    if !Complete(request) {
      return InternalServerError;
    }
    var id := caller.value;

    UpsertAbout(db, id, request.about.value);
    UpsertPreferences(db, id, request.preferences.value);
    UpsertLocation(db, id, request.location.value, now);
    return NoContent;
  }

  /**
   * `PUT /me` as written. A missing row is replaced by a new entity handed to `Update`,
   * which marks it as modified because its key `UserId` is not generated by the store; the
   * save then updates no row and throws, so nothing is saved. The handler succeeds only for
   * a caller who already has all three rows.
   */
  method PutMeAsWritten(db: RencardDb, caller: Option<string>, request: ProfileUpdateRequest, now: DateTime)
    returns (r: HttpResult)
    requires db.Valid()
    modifies db, db.aboutUsers.Values, db.userPreferences.Values, db.userLocations.Values
    ensures db.Valid()
    ensures old(!Resolves(db, caller)) ==> r == Unauthorized
    ensures old(Resolves(db, caller)) ==>
      var id := caller.value;
      (r == NoContent <==>
         Complete(request) && old(id in db.aboutUsers && id in db.userPreferences && id in db.userLocations))
    ensures old(Resolves(db, caller)) && r != NoContent ==> r == InternalServerError
    ensures r == NoContent ==>
      && AboutView(db.aboutUsers) == old(AboutView(db.aboutUsers))[caller.value := request.about.value]
      && PreferencesView(db.userPreferences) == old(PreferencesView(db.userPreferences))[caller.value := request.preferences.value]
      && LocationView(db.userLocations) == old(LocationView(db.userLocations))[caller.value := request.location.value.(lastUpdated := now)]
      && db.users == old(db.users) && db.refreshTokens == old(db.refreshTokens) && db.userPhotos == old(db.userPhotos)
    ensures r != NoContent ==>
      unchanged(db) && unchanged(db.aboutUsers.Values, db.userPreferences.Values, db.userLocations.Values)
  {
    if !Resolves(db, caller) {
      return Unauthorized;
    }
    var id := caller.value;
    if !Complete(request) || id !in db.aboutUsers || id !in db.userPreferences || id !in db.userLocations {
      return InternalServerError;
    }

    UpsertAbout(db, id, request.about.value);
    UpsertPreferences(db, id, request.preferences.value);
    UpsertLocation(db, id, request.location.value, now);
    return NoContent;
  }
}

=== FILE: entities.dfy ===
/**
 * The four per-user profile entities (`AboutUser`, `UserPreferences`, `UserLocation`,
 * `UserPhoto`), their transfer records, the patch records whose absent fields mean
 * "leave as is", and the converters and in-place updates between them.
 *
 * Each entity is a class: its key `UserId` is set when it is built and never reassigned,
 * the other fields are updated in place. A `double` coordinate is kept as its 64 bits and
 * never computed on.
 */
module Entities {
  import opened Wrappers
  import opened Dates

  /** A C# `int`. */
  newtype int32 = x: int | -0x8000_0000 <= x < 0x8000_0000

  /** A `double` coordinate, as its 64 bits. */
  datatype Coord = Coord(bits: bv64)

  /** `0.0`. */
  const ZeroCoord: Coord := Coord(0)

  /** The spatial reference of every stored point: WGS 84. */
  const Wgs84: int := 4326

  /** A geometry `Point`: longitude `x`, latitude `y`, spatial reference `srid`. */
  datatype Point = Point(x: Coord, y: Coord, srid: int)

  datatype AboutDto = AboutDto(description: string, isSmoker: bool, alcohol: string, religion: string)

  datatype PreferencesDto = PreferencesDto(
    preferredSex: string, minPreferredAge: int32, maxPreferredAge: int32, searchRadiusKm: int32)

  datatype LocationDto = LocationDto(longitude: Coord, latitude: Coord, lastUpdated: DateTime)

  datatype PhotoDto = PhotoDto(blobUrl: Option<string>, uploadedAt: DateTime)

  /** A partial update of `AboutUser`: `None` leaves the field as it is. */
  datatype AboutPatchDto = AboutPatchDto(
    description: Option<string>, isSmoker: Option<bool>, alcohol: Option<string>, religion: Option<string>)

  /** A partial update of `UserPreferences`: `None` leaves the field as it is. */
  datatype PreferencesPatchDto = PreferencesPatchDto(
    preferredSex: Option<string>, minPreferredAge: Option<int32>,
    maxPreferredAge: Option<int32>, searchRadiusKm: Option<int32>)

  /** A partial update of `UserLocation`: it takes effect only with both coordinates. */
  datatype LocationPatchDto = LocationPatchDto(longitude: Option<Coord>, latitude: Option<Coord>)

  /** The initial values of a new `AboutUser`. */
  const DefaultAbout: AboutDto := AboutDto("", false, "None", "Other")

  /** The initial values of a new `UserPreferences`. */
  const DefaultPreferences: PreferencesDto := PreferencesDto("both", 18, 100, 1)

  const EmptyAboutPatch: AboutPatchDto := AboutPatchDto(None, None, None, None)

  const EmptyPreferencesPatch: PreferencesPatchDto := PreferencesPatchDto(None, None, None, None)

  /** What a patch makes of an `AboutUser`'s fields. */
  function PatchAbout(a: AboutDto, p: AboutPatchDto): AboutDto
  {
    AboutDto(p.description.GetOr(a.description), p.isSmoker.GetOr(a.isSmoker),
             p.alcohol.GetOr(a.alcohol), p.religion.GetOr(a.religion))
  }

  /** What a patch makes of a `UserPreferences`' fields. */
  function PatchPreferences(a: PreferencesDto, p: PreferencesPatchDto): PreferencesDto
  {
    PreferencesDto(p.preferredSex.GetOr(a.preferredSex), p.minPreferredAge.GetOr(a.minPreferredAge),
                   p.maxPreferredAge.GetOr(a.maxPreferredAge), p.searchRadiusKm.GetOr(a.searchRadiusKm))
  }

  class AboutUser {
    const userId: string
    var description: string
    var isSmoker: bool
    var alcohol: string
    var religion: string

    /** `new AboutUser { UserId = userId }`. */
    constructor (userId: string)
      ensures this.userId == userId && ToDto() == DefaultAbout
    {
      this.userId := userId;
      description, isSmoker, alcohol, religion := "", false, "None", "Other";
    }

    /** `ToDto`. */
    function ToDto(): AboutDto
      reads this
    {
      AboutDto(description, isSmoker, alcohol, religion)
    }

    /** `ToDtoUpdate`: a patch that, applied to any entity, makes it equal to this one. */
    function ToDtoUpdate(): (p: AboutPatchDto)
      reads this
      ensures forall a :: PatchAbout(a, p) == ToDto()
    {
      AboutPatchDto(Some(description), Some(isSmoker), Some(alcohol), Some(religion))
    }

    /** The full `UpdateFrom`: every field takes the transfer record's value. */
    method UpdateFrom(dto: AboutDto)
      modifies this
      ensures ToDto() == dto
    {
      description := dto.description;
      isSmoker := dto.isSmoker;
      alcohol := dto.alcohol;
      religion := dto.religion;
    }

    /** The patch `UpdateFrom`: a field changes only where the patch carries a value. */
    method ApplyPatch(dto: AboutPatchDto)
      modifies this
      ensures ToDto() == PatchAbout(old(ToDto()), dto)
    {
      if dto.description.Some? { description := dto.description.value; }
      if dto.isSmoker.Some? { isSmoker := dto.isSmoker.value; }
      if dto.alcohol.Some? { alcohol := dto.alcohol.value; }
      if dto.religion.Some? { religion := dto.religion.value; }
    }
  }

  class UserPreferences {
    const userId: string
    var preferredSex: string
    var minPreferredAge: int32
    var maxPreferredAge: int32
    var searchRadiusKm: int32

    /** `new UserPreferences { UserId = userId }`. */
    constructor (userId: string)
      ensures this.userId == userId && ToDto() == DefaultPreferences
    {
      this.userId := userId;
      preferredSex, minPreferredAge, maxPreferredAge, searchRadiusKm := "both", 18, 100, 1;
    }

    /** `ToDto`. */
    function ToDto(): PreferencesDto
      reads this
    {
      PreferencesDto(preferredSex, minPreferredAge, maxPreferredAge, searchRadiusKm)
    }

    /** `ToDtoUpdate`: a patch that, applied to any entity, makes it equal to this one. */
    function ToDtoUpdate(): (p: PreferencesPatchDto)
      reads this
      ensures forall a :: PatchPreferences(a, p) == ToDto()
    {
      PreferencesPatchDto(Some(preferredSex), Some(minPreferredAge), Some(maxPreferredAge), Some(searchRadiusKm))
    }

    /** The full `UpdateFrom`: every field takes the transfer record's value. */
    method UpdateFrom(dto: PreferencesDto)
      modifies this
      ensures ToDto() == dto
    {
      preferredSex := dto.preferredSex;
      minPreferredAge := dto.minPreferredAge;
      maxPreferredAge := dto.maxPreferredAge;
      searchRadiusKm := dto.searchRadiusKm;
    }

    /** The patch `UpdateFrom`: a field changes only where the patch carries a value. */
    method ApplyPatch(dto: PreferencesPatchDto)
      modifies this
      ensures ToDto() == PatchPreferences(old(ToDto()), dto)
    {
      if dto.preferredSex.Some? { preferredSex := dto.preferredSex.value; }
      if dto.minPreferredAge.Some? { minPreferredAge := dto.minPreferredAge.value; }
      if dto.maxPreferredAge.Some? { maxPreferredAge := dto.maxPreferredAge.value; }
      if dto.searchRadiusKm.Some? { searchRadiusKm := dto.searchRadiusKm.value; }
    }
  }

  class UserLocation {
    const userId: string
    var geography: Option<Point>
    var lastUpdated: DateTime

    /** `new UserLocation { UserId = userId }`: no point yet, stamped with the clock. */
    constructor (userId: string, now: DateTime)
      ensures this.userId == userId && geography == None && lastUpdated == now
    {
      this.userId := userId;
      geography := None;
      lastUpdated := now;
    }

    /** `ToDto`: a missing point reads as `(0, 0)`. */
    function ToDto(): LocationDto
      reads this
    {
      match geography
      case None => LocationDto(ZeroCoord, ZeroCoord, lastUpdated)
      case Some(p) => LocationDto(p.x, p.y, lastUpdated)
    }

    /** `ToDtoUpdate`: the coordinates when there is a point, none otherwise. */
    function ToDtoUpdate(): (p: LocationPatchDto)
      reads this
      ensures p.longitude.Some? <==> geography.Some?
      ensures p.latitude.Some? <==> geography.Some?
      ensures geography.Some? ==> p.longitude.value == ToDto().longitude && p.latitude.value == ToDto().latitude
    {
      match geography
      case None => LocationPatchDto(None, None)
      case Some(pt) => LocationPatchDto(Some(pt.x), Some(pt.y))
    }

    /**
     * The full `UpdateFrom`: a WGS 84 point at the record's coordinates, stamped with the
     * clock; the record's own `LastUpdated` is not used.
     */
    method UpdateFrom(dto: LocationDto, now: DateTime)
      modifies this
      ensures geography == Some(Point(dto.longitude, dto.latitude, Wgs84)) && lastUpdated == now
      ensures ToDto() == dto.(lastUpdated := now)
    {
      geography := Some(Point(dto.longitude, dto.latitude, Wgs84));
      lastUpdated := now;
    }

    /** The patch `UpdateFrom`: it does something only when both coordinates are present. */
    method ApplyPatch(dto: LocationPatchDto, now: DateTime)
      modifies this
      ensures dto.longitude.Some? && dto.latitude.Some? ==>
        geography == Some(Point(dto.longitude.value, dto.latitude.value, Wgs84)) && lastUpdated == now
      ensures dto.longitude.None? || dto.latitude.None? ==>
        geography == old(geography) && lastUpdated == old(lastUpdated)
    {
      if dto.longitude.Some? && dto.latitude.Some? {
        geography := Some(Point(dto.longitude.value, dto.latitude.value, Wgs84));
        lastUpdated := now;
      }
    }
  }

  class UserPhoto {
    const userId: string
    var blobUrl: Option<string>
    var uploadedAt: DateTime

    /** `new UserPhoto { UserId = userId }`: no picture, stamped with the clock. */
    constructor (userId: string, now: DateTime)
      ensures this.userId == userId && blobUrl == None && uploadedAt == now
    {
      this.userId := userId;
      blobUrl := None;
      uploadedAt := now;
    }

    function ToDto(): PhotoDto
      reads this
    {
      PhotoDto(blobUrl, uploadedAt)
    }
  }

  /** `AboutDto.ToEntity(userId)`. */
  method AboutToEntity(dto: AboutDto, userId: string) returns (e: AboutUser)
    ensures fresh(e) && e.userId == userId && e.ToDto() == dto
  {
    e := new AboutUser(userId);
    e.UpdateFrom(dto);
  }

  /** `PreferencesDto.ToEntity(userId)`. */
  method PreferencesToEntity(dto: PreferencesDto, userId: string) returns (e: UserPreferences)
    ensures fresh(e) && e.userId == userId && e.ToDto() == dto
  {
    e := new UserPreferences(userId);
    e.UpdateFrom(dto);
  }

  /** `LocationDto.ToEntity(userId)`: the record's coordinates and time are dropped. */
  method LocationToEntity(dto: LocationDto, userId: string, now: DateTime) returns (e: UserLocation)
    ensures fresh(e) && e.userId == userId && e.geography == None && e.lastUpdated == now
    ensures e.ToDto() == LocationDto(ZeroCoord, ZeroCoord, now)
  {
    e := new UserLocation(userId, now);
  }

  /** `PhotoDto.ToEntity(userId)`. */
  method PhotoToEntity(dto: PhotoDto, userId: string) returns (e: UserPhoto)
    ensures fresh(e) && e.userId == userId && e.ToDto() == dto
  {
    e := new UserPhoto(userId, dto.uploadedAt);
    e.blobUrl := dto.blobUrl;
  }

  /** Applying a patch a second time changes nothing more. */
  lemma PatchAboutIdempotent(a: AboutDto, p: AboutPatchDto)
    ensures PatchAbout(PatchAbout(a, p), p) == PatchAbout(a, p)
  {
  }

  lemma PatchPreferencesIdempotent(a: PreferencesDto, p: PreferencesPatchDto)
    ensures PatchPreferences(PatchPreferences(a, p), p) == PatchPreferences(a, p)
  {
  }

  /** A patch with no values changes nothing. */
  lemma EmptyPatchKeepsAbout(a: AboutDto)
    ensures PatchAbout(a, EmptyAboutPatch) == a
  {
  }

  lemma EmptyPatchKeepsPreferences(a: PreferencesDto)
    ensures PatchPreferences(a, EmptyPreferencesPatch) == a
  {
  }

  /** A field is different after a patch only if the patch carries a value for it, and then it is that value. */
  lemma PatchAboutFieldwise(a: AboutDto, p: AboutPatchDto)
    ensures var r := PatchAbout(a, p);
      && (r.description != a.description ==> p.description.Some?)
      && (p.description.Some? ==> r.description == p.description.value)
      && (r.isSmoker != a.isSmoker ==> p.isSmoker.Some?)
      && (p.isSmoker.Some? ==> r.isSmoker == p.isSmoker.value)
      && (r.alcohol != a.alcohol ==> p.alcohol.Some?)
      && (p.alcohol.Some? ==> r.alcohol == p.alcohol.value)
      && (r.religion != a.religion ==> p.religion.Some?)
      && (p.religion.Some? ==> r.religion == p.religion.value)
  {
  }

  lemma PatchPreferencesFieldwise(a: PreferencesDto, p: PreferencesPatchDto)
    ensures var r := PatchPreferences(a, p);
      && (r.preferredSex != a.preferredSex ==> p.preferredSex.Some?)
      && (p.preferredSex.Some? ==> r.preferredSex == p.preferredSex.value)
      && (r.minPreferredAge != a.minPreferredAge ==> p.minPreferredAge.Some?)
      && (p.minPreferredAge.Some? ==> r.minPreferredAge == p.minPreferredAge.value)
      && (r.maxPreferredAge != a.maxPreferredAge ==> p.maxPreferredAge.Some?)
      && (p.maxPreferredAge.Some? ==> r.maxPreferredAge == p.maxPreferredAge.value)
      && (r.searchRadiusKm != a.searchRadiusKm ==> p.searchRadiusKm.Some?)
      && (p.searchRadiusKm.Some? ==> r.searchRadiusKm == p.searchRadiusKm.value)
  {
  }
}

=== FILE: identity.dfy ===
/**
 * The identity directory (`UserManager`) as far as the services use it: creating a user,
 * finding one by e-mail, checking and changing a password. Hashing, the password policy and
 * the name and e-mail format rules belong to the framework and are parameters here.
 */
module Identity {
  import opened Wrappers
  import opened Database

  /** The framework's rules that the model does not spell out. */
  datatype IdentityOracle = IdentityOracle(
    /** The hash stored for a password. */
    hashPassword: string -> string,
    /** Whether a password matches a stored hash. */
    passwordMatches: (string, string) -> bool,
    /** The password policy's complaints about a password. */
    passwordErrors: string -> seq<string>,
    /** Complaints about the characters of a user name. */
    userNameErrors: string -> seq<string>,
    /** Complaints about the form of an e-mail address. */
    emailErrors: string -> seq<string>,
    /** Complaints of `ChangePasswordAsync`, given the stored hash, the current and the new password. */
    changePasswordErrors: (string, string, string) -> seq<string>)

  function DuplicateUserNameError(userName: string): string
  {
    "Username '" + userName + "' is already taken."
  }

  function DuplicateEmailError(email: string): string
  {
    "Email '" + email + "' is already taken."
  }

  /**
   * The error descriptions `CreateAsync(user, password)` reports for a user whose user name
   * and e-mail are `email`: the password policy first, and only when it is satisfied the
   * user rules, which include the unique e-mail the service is configured with. A name or an
   * address that breaks its character rule is not looked up, so it is never also reported
   * as taken.
   */
  function CreateErrors(oracle: IdentityOracle, db: RencardDb, email: string, password: string): (errors: seq<string>)
    reads db
    ensures errors == [] <==>
      && oracle.passwordErrors(password) == [] && oracle.userNameErrors(email) == []
      && oracle.emailErrors(email) == [] && !db.UserNameTaken(email) && !db.EmailTaken(email)
    ensures oracle.passwordErrors(password) == [] && oracle.emailErrors(email) == [] && db.EmailTaken(email) ==>
      DuplicateEmailError(email) in errors
    ensures oracle.passwordErrors(password) == [] && oracle.userNameErrors(email) == [] && db.UserNameTaken(email) ==>
      DuplicateUserNameError(email) in errors
  {
    var passwordErrors := oracle.passwordErrors(password);
    if passwordErrors != [] then passwordErrors
    else
      oracle.userNameErrors(email)
      + (if oracle.userNameErrors(email) == [] && db.UserNameTaken(email) then [DuplicateUserNameError(email)] else [])
      + oracle.emailErrors(email)
      + (if oracle.emailErrors(email) == [] && db.EmailTaken(email) then [DuplicateEmailError(email)] else [])
  }

  /**
   * How `CreateAsync(user, password)` ends: the user is stored, the directory refuses it
   * with error descriptions, or the store's insert throws. The last happens for a user
   * without a sex: `User.Sex` is `[Required]`, so its column does not accept `null`.
   */
  datatype CreateOutcome = Created | Refused(errors: seq<string>) | InsertRejected

  /**
   * `CreateAsync(user, password)` for a user whose user name and e-mail are the same
   * address: on success the user is stored with the password's hash; otherwise nothing is
   * stored.
   */
  method Create(db: RencardDb, oracle: IdentityOracle, user: User, password: string) returns (r: CreateOutcome)
    requires db.Valid() && user.id !in db.users && user.email == Some(user.userName)
    modifies db, user
    ensures db.Valid()
    ensures var errors := old(CreateErrors(oracle, db, user.userName, password));
      r == if errors != [] then Refused(errors) else if old(user.sex).None? then InsertRejected else Created
    ensures r.Created? ==> db.users == old(db.users)[user.id := user] && user.passwordHash == oracle.hashPassword(password)
    ensures !r.Created? ==> db.users == old(db.users)
    ensures user.phoneNumber == old(user.phoneNumber) && user.birthDate == old(user.birthDate) && user.sex == old(user.sex)
    ensures db.refreshTokens == old(db.refreshTokens) && db.ProfileTables() == old(db.ProfileTables())
  {
    var errors := CreateErrors(oracle, db, user.userName, password);
    if errors != [] {
      return Refused(errors);
    }
    user.passwordHash := oracle.hashPassword(password);
    if user.sex.None? {
      return InsertRejected;
    }
    db.users := db.users[user.id := user];
    r := Created;
  }

  /** `FindByEmailAsync`: the one user with that e-mail, if any. */
  method FindByEmail(db: RencardDb, email: string) returns (u: Option<User>)
    requires db.Valid()
    ensures u.Some? <==> db.EmailTaken(email)
    ensures u.Some? ==> u.value == db.UserWithEmail(email) && u.value == db.users[u.value.id]
  {
    if db.EmailTaken(email) {
      var id :| id in db.users && db.users[id].email == Some(email);
      u := Some(db.users[id]);
    } else {
      u := None;
    }
  }

  /**
   * `ChangePasswordAsync`: the framework's verdict on the stored hash and the two
   * passwords; on success the new password's hash replaces the old one.
   */
  method ChangePassword(oracle: IdentityOracle, user: User, currentPassword: string, newPassword: string)
    returns (errors: seq<string>)
    modifies user
    ensures errors == oracle.changePasswordErrors(old(user.passwordHash), currentPassword, newPassword)
    ensures user.passwordHash == if errors == [] then oracle.hashPassword(newPassword) else old(user.passwordHash)
    ensures user.phoneNumber == old(user.phoneNumber) && user.birthDate == old(user.birthDate) && user.sex == old(user.sex)
  {
    errors := oracle.changePasswordErrors(user.passwordHash, currentPassword, newPassword);
    if errors == [] {
      user.passwordHash := oracle.hashPassword(newPassword);
    }
  }
}

=== FILE: request_validation.dfy ===
/**
 * The declarative rules of the `PhoneSexAgeRequest` request model and the way
 * `Validator.TryValidateObject(..., validateAllProperties: true)` applies them: property by
 * property in declaration order, `[Required]` first and alone when it fails, then every
 * other attribute of the property, each failure adding its message.
 */
module RequestValidation {
  import opened Wrappers
  import opened Dates
  import Text
  import AgeValidation

  /** `[Required]` on a string: present, and not empty or white space only. */
  predicate RequiredString(value: Option<string>)
  {
    value.Some? && !Text.IsBlank(value.value)
  }

  predicate IsDigit(c: char)
  {
    '0' <= c <= '9'
  }

  predicate AllDigits(s: string)
  {
    forall i :: 0 <= i < |s| ==> IsDigit(s[i])
  }

  /** The strings `^(male|female)$` matches in full. */
  predicate IsSexWord(s: string)
  {
    s == "male" || s == "female"
  }

  /** The strings `^\+?[0-9]+$` matches in full: an optional `+`, then one or more ASCII digits. */
  predicate IsPhoneWord(s: string)
  {
    (|s| >= 1 && AllDigits(s)) || (|s| >= 2 && s[0] == '+' && AllDigits(s[1..]))
  }

  /** A value either pattern accepts passes `[Required]`: it has a character that is not white space. */
  lemma WordsAreRequired(value: Option<string>)
    ensures value.Some? && (IsSexWord(value.value) || IsPhoneWord(value.value)) ==> RequiredString(value)
  {
    if value.Some? && (IsSexWord(value.value) || IsPhoneWord(value.value)) {
      var s := value.value;
      assert !Text.IsWhiteSpace(s[|s| - 1]);
    }
  }

  /** A value the phone pattern accepts is ASCII, so its `string.Length` is its number of characters. */
  lemma PhoneWordIsBmp(value: Option<string>)
    ensures value.Some? && IsPhoneWord(value.value) ==> Text.Utf16Length(value.value) == |value.value|
  {
    if value.Some? && IsPhoneWord(value.value) && value.value[0] == '+' {
      var s := value.value;
      assert forall i :: 1 <= i < |s| ==> s[i] == s[1..][i - 1];
    }
  }

  /**
   * `[RegularExpression]`: a missing or empty value passes; any other value must be
   * matched in full by the pattern, whose language is `matches`.
   */
  function RegexPasses(matches: string -> bool, value: Option<string>): bool
  {
    match value
    case None => true
    case Some(s) => |s| == 0 || matches(s)
  }

  /**
   * `[StringLength(max, MinimumLength = min)]`: a missing value passes; the length is
   * `string.Length`, in UTF-16 code units.
   */
  function StringLengthPasses(min: nat, max: nat, value: Option<string>): bool
  {
    value.None? || (min <= Text.Utf16Length(value.value) && Text.Utf16Length(value.value) <= max)
  }

  /** `[Phone]`, whose pattern belongs to the framework: `isPhone` stands for it; a missing value passes. */
  function PhonePasses(isPhone: string -> bool, value: Option<string>): bool
  {
    value.None? || isPhone(value.value)
  }

  /** The messages of the failed checks, in declaration order. */
  function FailedMessages(checks: seq<(bool, string)>): (messages: seq<string>)
    ensures |messages| <= |checks|
    ensures messages == [] <==> forall i :: 0 <= i < |checks| ==> checks[i].0
    ensures forall i :: 0 <= i < |checks| && !checks[i].0 ==> checks[i].1 in messages
    ensures forall m :: m in messages ==> exists i :: 0 <= i < |checks| && !checks[i].0 && checks[i].1 == m
  {
    if |checks| == 0 then []
    else
      var rest := FailedMessages(checks[1..]);
      assert forall i :: 1 <= i < |checks| ==> checks[i] == checks[1..][i - 1];
      if checks[0].0 then rest else [checks[0].1] + rest
  }

  /** One property: `[Required]` stops the property when it fails; otherwise every other check runs. */
  function PropertyErrors(required: bool, requiredMessage: string, checks: seq<(bool, string)>): seq<string>
  {
    if !required then [requiredMessage] else FailedMessages(checks)
  }

  /** `BirthDate`: `[Required]` never fails on a `DateTime`, then `[CustomAgeValidation(18)]`. */
  function BirthDateErrors(birthDate: DateTime, today: Date): (messages: seq<string>)
    ensures messages == [] <==> !DateLess(AddYears(today, -18), birthDate.date)
    ensures messages != [] ==> messages == ["You must be at least 18 years old"]
  {
    var attr := AgeValidation.NewCustomAgeAttribute(18, Some("You must be at least 18 years old"));
    var verdict := AgeValidation.CustomAgeIsValid(attr, AgeValidation.DateValue(birthDate), "BirthDate", today);
    PropertyErrors(true, "Birth date is required", [(verdict.None?, attr.errorMessage)])
  }

  /** `Sex`: `[Required]`, then `[RegularExpression("^(male|female)$")]`. */
  function SexErrors(sex: Option<string>): (messages: seq<string>)
    ensures messages == [] <==> sex == Some("male") || sex == Some("female")
    ensures !RequiredString(sex) ==> messages == ["Sex is required"]
    ensures RequiredString(sex) && !IsSexWord(sex.value) ==> messages == ["Sex must be either 'male' or 'female'"]
  {
    WordsAreRequired(sex);
    PropertyErrors(RequiredString(sex), "Sex is required",
      [(RegexPasses(IsSexWord, sex), "Sex must be either 'male' or 'female'")])
  }

  /** Which of three checks fail, in order. */
  lemma {:induction false} ThreeChecks(checks: seq<(bool, string)>)
    requires |checks| == 3
    ensures FailedMessages(checks)
         == (if checks[0].0 then [] else [checks[0].1])
          + (if checks[1].0 then [] else [checks[1].1])
          + (if checks[2].0 then [] else [checks[2].1])
  {
    assert checks[1..][1..] == [checks[2]];
    assert checks[1..][1..][1..] == [];
  }

  /**
   * `PhoneNumber`: `[Required]`, then `[Phone]`, `[StringLength(12, MinimumLength = 10)]`
   * and `[RegularExpression(@"^\+?[0-9]+$")]`.
   */
  function PhoneErrors(isPhone: string -> bool, phone: Option<string>): (messages: seq<string>)
    ensures messages == [] <==>
      phone.Some? && isPhone(phone.value) && 10 <= |phone.value| <= 12 && IsPhoneWord(phone.value)
    ensures !RequiredString(phone) ==> messages == ["Phone number is required"]
    ensures RequiredString(phone) ==>
      ("Phone number must be 10-12 digits" in messages <==> !(10 <= Text.Utf16Length(phone.value) <= 12))
    ensures RequiredString(phone) ==>
      ("Phone number can only contain numbers and optional '+' prefix" in messages <==> !IsPhoneWord(phone.value))
    ensures RequiredString(phone) ==> ("Invalid phone number format" in messages <==> !isPhone(phone.value))
  {
    var checks :=
      [ (PhonePasses(isPhone, phone), "Invalid phone number format"),
        (StringLengthPasses(10, 12, phone), "Phone number must be 10-12 digits"),
        (RegexPasses(IsPhoneWord, phone), "Phone number can only contain numbers and optional '+' prefix") ];
    WordsAreRequired(phone);
    PhoneWordIsBmp(phone);
    ThreeChecks(checks);
    PropertyErrors(RequiredString(phone), "Phone number is required", checks)
  }

  /** The request model: `DateTime` cannot be null, the two strings can. */
  datatype PhoneSexAgeRequest = PhoneSexAgeRequest(birthDate: DateTime, sex: Option<string>, phoneNumber: Option<string>)

  /** `Validator.TryValidateObject` with all properties: the messages it collects, in property order. */
  function Validate(request: PhoneSexAgeRequest, isPhone: string -> bool, today: Date): (messages: seq<string>)
    ensures messages == [] <==>
      && !DateLess(AddYears(today, -18), request.birthDate.date)
      && (request.sex == Some("male") || request.sex == Some("female"))
      && request.phoneNumber.Some?
      && isPhone(request.phoneNumber.value)
      && 10 <= |request.phoneNumber.value| <= 12
      && IsPhoneWord(request.phoneNumber.value)
  {
    BirthDateErrors(request.birthDate, today) + SexErrors(request.sex) + PhoneErrors(isPhone, request.phoneNumber)
  }
}

=== FILE: text.dfy ===
/**
 * String helpers of the .NET base library that the core relies on: `string.Join(char, …)`,
 * `string.Split(char)`, the decimal rendering of an `int` inside an interpolated string,
 * and `char.IsWhiteSpace` as used by `[Required]`.
 */
module Text {

  /** Number of occurrences of `c` in `s`. */
  function Count(s: string, c: char): (n: nat)
    ensures n <= |s|
    ensures n == 0 <==> c !in s
  {
    if s == [] then 0 else (if s[0] == c then 1 else 0) + Count(s[1..], c)
  }

  lemma {:induction false} CountAppend(a: string, b: string, c: char)
    ensures Count(a + b, c) == Count(a, c) + Count(b, c)
  {
    if a != [] {
      assert (a + b)[1..] == a[1..] + b;
      CountAppend(a[1..], b, c);
    } else {
      assert a + b == b;
    }
  }

  /** `string.Join(sep, parts)`: the parts with one `sep` between neighbours. */
  function Join(parts: seq<string>, sep: char): string
  {
    if |parts| == 0 then ""
    else if |parts| == 1 then parts[0]
    else parts[0] + [sep] + Join(parts[1..], sep)
  }

  /**
   * `s.Split(sep)`: the maximal runs between separators, empty runs kept, so there is
   * always one more part than there are separators (`"".Split(';')` is `[""]`).
   */
  function Split(s: string, sep: char): (parts: seq<string>)
    ensures |parts| == Count(s, sep) + 1
    ensures forall i :: 0 <= i < |parts| ==> sep !in parts[i]
  {
    if s == [] then [""]
    else
      var rest := Split(s[1..], sep);
      if s[0] == sep then [""] + rest
      else [[s[0]] + rest[0]] + rest[1..]
  }

  predicate NoneContains(parts: seq<string>, sep: char)
  {
    forall i :: 0 <= i < |parts| ==> sep !in parts[i]
  }

  function SumCounts(parts: seq<string>, sep: char): nat
  {
    if parts == [] then 0 else Count(parts[0], sep) + SumCounts(parts[1..], sep)
  }

  lemma {:induction false} SumCountsZero(parts: seq<string>, sep: char)
    ensures SumCounts(parts, sep) == 0 <==> NoneContains(parts, sep)
  {
    if parts != [] {
      SumCountsZero(parts[1..], sep);
      if NoneContains(parts[1..], sep) && sep !in parts[0] {
        forall i | 0 <= i < |parts| ensures sep !in parts[i] {
          if i > 0 { assert parts[i] == parts[1..][i - 1]; }
        }
      }
      if NoneContains(parts, sep) {
        forall i | 0 <= i < |parts[1..]| ensures sep !in parts[1..][i] {
          assert parts[1..][i] == parts[i + 1];
        }
      }
    }
  }

  lemma {:induction false} JoinCount(parts: seq<string>, sep: char)
    requires |parts| >= 1
    ensures Count(Join(parts, sep), sep) == SumCounts(parts, sep) + |parts| - 1
  {
    if |parts| == 1 {
      assert parts[1..] == [];
    } else {
      JoinCount(parts[1..], sep);
      CountAppend(parts[0] + [sep], Join(parts[1..], sep), sep);
      CountAppend(parts[0], [sep], sep);
    }
  }

  lemma {:induction false} SplitWithoutSeparator(p: string, sep: char)
    requires sep !in p
    ensures Split(p, sep) == [p]
  {
    if p != [] {
      SplitWithoutSeparator(p[1..], sep);
      assert [p[0]] + p[1..] == p;
    }
  }

  lemma {:induction false} SplitAfterPart(p: string, rest: string, sep: char)
    requires sep !in p
    ensures Split(p + [sep] + rest, sep) == [p] + Split(rest, sep)
  {
    var s := p + [sep] + rest;
    if p == [] {
      assert s[1..] == rest;
    } else {
      assert s[1..] == p[1..] + [sep] + rest;
      SplitAfterPart(p[1..], rest, sep);
      assert [p[0]] + p[1..] == p;
    }
  }

  /** Joining parts that hold no separator and splitting the result gives the parts back. */
  lemma {:induction false} SplitJoin(parts: seq<string>, sep: char)
    requires |parts| >= 1
    requires NoneContains(parts, sep)
    ensures Split(Join(parts, sep), sep) == parts
  {
    if |parts| == 1 {
      SplitWithoutSeparator(parts[0], sep);
    } else {
      assert sep !in parts[0];
      assert NoneContains(parts[1..], sep) by {
        forall i | 0 <= i < |parts[1..]| ensures sep !in parts[1..][i] {
          assert parts[1..][i] == parts[i + 1];
        }
      }
      SplitJoin(parts[1..], sep);
      SplitAfterPart(parts[0], Join(parts[1..], sep), sep);
      assert [parts[0]] + parts[1..] == parts;
    }
  }

  /**
   * Splitting a joined non-empty list recovers it exactly when no part holds the separator;
   * a part that does is cut in two, so the list comes back longer.
   */
  lemma SplitJoinIff(parts: seq<string>, sep: char)
    requires |parts| >= 1
    ensures Split(Join(parts, sep), sep) == parts <==> NoneContains(parts, sep)
  {
    if NoneContains(parts, sep) {
      SplitJoin(parts, sep);
    } else {
      JoinCount(parts, sep);
      SumCountsZero(parts, sep);
      assert |Split(Join(parts, sep), sep)| > |parts|;
    }
  }

  /** The character for a decimal digit. */
  function DigitChar(d: nat): (c: char)
    requires d < 10
    ensures '0' <= c <= '9'
  {
    ('0' as int + d) as char
  }

  /** Decimal rendering of a natural number, without leading zeros. */
  function NatToString(n: nat): (s: string)
    ensures |s| >= 1
    ensures forall i :: 0 <= i < |s| ==> '0' <= s[i] <= '9'
    ensures |s| > 1 ==> s[0] != '0'
  {
    if n < 10 then [DigitChar(n)] else NatToString(n / 10) + [DigitChar(n % 10)]
  }

  /** The value of a string of decimal digits. */
  function DigitsValue(s: string): nat
    requires forall i :: 0 <= i < |s| ==> '0' <= s[i] <= '9'
  {
    if s == [] then 0 else DigitsValue(s[..|s| - 1]) * 10 + (s[|s| - 1] as int - '0' as int)
  }

  /** Reading the rendering back gives the number. */
  lemma {:induction false} NatToStringValue(n: nat)
    ensures DigitsValue(NatToString(n)) == n
  {
    if n >= 10 {
      var s := NatToString(n);
      assert s[..|s| - 1] == NatToString(n / 10);
      NatToStringValue(n / 10);
    }
  }

  /** An `int` as C# renders it in an interpolated string: a leading `-` when negative. */
  function IntToString(i: int): (s: string)
    ensures |s| >= 1 && (i < 0 <==> s[0] == '-')
  {
    if i < 0 then "-" + NatToString(-i) else NatToString(i)
  }

  /** `char.IsWhiteSpace`: the Unicode space separators, line and paragraph separators, and U+0009–U+000D, U+0085. */
  predicate IsWhiteSpace(c: char)
  {
    || c == ' ' || ('\t' <= c <= '\r') || c == '\U{85}' || c == '\U{A0}' || c == '\U{1680}'
    || ('\U{2000}' <= c <= '\U{200A}') || c == '\U{2028}' || c == '\U{2029}'
    || c == '\U{202F}' || c == '\U{205F}' || c == '\U{3000}'
  }

  /** A character of the Basic Multilingual Plane: one UTF-16 code unit. */
  predicate InBmp(c: char)
  {
    c as int <= 0xFFFF
  }

  /**
   * `string.Length`: the number of UTF-16 code units, two for each character outside the
   * Basic Multilingual Plane. It equals the number of characters exactly when every
   * character is in that plane.
   */
  function Utf16Length(s: string): (n: nat)
    ensures |s| <= n <= 2 * |s|
    ensures n == |s| <==> forall i :: 0 <= i < |s| ==> InBmp(s[i])
  {
    if |s| == 0 then 0
    else
      var rest := Utf16Length(s[1..]);
      assert forall i :: 1 <= i < |s| ==> s[i] == s[1..][i - 1];
      (if InBmp(s[0]) then 1 else 2) + rest
  }

  /** `string.IsNullOrWhiteSpace` for a non-null string: empty, or only white space. */
  predicate IsBlank(s: string)
  {
    forall i :: 0 <= i < |s| ==> IsWhiteSpace(s[i])
  }
}

=== FILE: tokens.dfy ===
/**
 * `TokenService`: the content of an access token (claims, issuer, audience, expiry) and
 * the refresh token, the Base 64 text of 64 random bytes. Serialising and signing the
 * access token are not modelled; the random bytes are a parameter.
 */
module Tokens {
  import opened Wrappers
  import opened Dates
  import Base64

  datatype Claim = Claim(claimType: string, value: string)

  /** `JwtOptions`; `lifetime` is a `TimeSpan` in ticks. */
  datatype JwtOptions = JwtOptions(secret: string, issuer: string, audience: string, lifetime: int)

  /** The content of a `JwtSecurityToken`; `expires` is an instant in ticks. */
  datatype JwtToken = JwtToken(issuer: string, audience: string, claims: seq<Claim>, expires: int)

  /**
   * `GenerateAccessToken(userId, claims)`: the subject claim first, then every extra claim
   * in the dictionary's enumeration order (`claims` lists its key/value pairs), issuer and
   * audience from the options, and expiry `now + Lifetime`.
   */
  method GenerateAccessToken(opts: JwtOptions, userId: string, claims: Option<seq<(string, string)>>, now: DateTime)
    returns (token: JwtToken)
    ensures token.issuer == opts.issuer && token.audience == opts.audience
    ensures token.expires == AddTicks(now, opts.lifetime)
    ensures |token.claims| >= 1 && token.claims[0] == Claim("sub", userId)
    ensures claims.None? ==> |token.claims| == 1
    ensures claims.Some? ==> |token.claims| == 1 + |claims.value|
    ensures claims.Some? ==>
      forall i :: 0 <= i < |claims.value| ==> token.claims[i + 1] == Claim(claims.value[i].0, claims.value[i].1)
  {
    var claimsList := [Claim("sub", userId)];
    if claims.Some? {
      var kvs := claims.value;
      for n := 0 to |kvs|
        invariant |claimsList| == 1 + n && claimsList[0] == Claim("sub", userId)
        invariant forall i :: 0 <= i < n ==> claimsList[i + 1] == Claim(kvs[i].0, kvs[i].1)
      {
        claimsList := claimsList + [Claim(kvs[n].0, kvs[n].1)];
      }
    }
    token := JwtToken(opts.issuer, opts.audience, claimsList, AddTicks(now, opts.lifetime));
  }

  /**
   * `GenerateRefreshToken` for the 64 random bytes it draws: 88 characters of the Base 64
   * alphabet ending in `==`, from which the bytes can be decoded again.
   */
  function GenerateRefreshToken(randomBytes: seq<Base64.byte>): (token: string)
    requires |randomBytes| == 64
    ensures |token| == 88 && token[86..] == "=="
    ensures forall i :: 0 <= i < 86 ==> Base64.IsAlphabet(token[i])
    ensures Base64.Decode(token) == Some(randomBytes)
  {
    EncodingOf64Bytes(randomBytes);
    Base64.Encode(randomBytes)
  }

  lemma EncodingOf64Bytes(randomBytes: seq<Base64.byte>)
    requires |randomBytes| == 64
    ensures var token := Base64.Encode(randomBytes);
      && |token| == 88 && token[86..] == "=="
      && (forall i :: 0 <= i < 86 ==> Base64.IsAlphabet(token[i]))
      && Base64.Decode(token) == Some(randomBytes)
  {
    var token := Base64.Encode(randomBytes);
    assert Base64.PaddingLength(64) == 2;
    assert token[86..] == [token[86], token[87]];
    Base64.DecodeEncode(randomBytes);
  }

  /** Different random bytes give different refresh tokens. */
  lemma RefreshTokensDiffer(a: seq<Base64.byte>, b: seq<Base64.byte>)
    requires |a| == 64 && |b| == 64 && a != b
    ensures GenerateRefreshToken(a) != GenerateRefreshToken(b)
  {
  }
}

=== FILE: user_service.dfy ===
/**
 * `UserService.CreateAsync`: create the identity user, then one row with default values in
 * each of the four profile tables. A refused creation becomes an exception whose message
 * is the error descriptions joined by `;`, and a rejected insert lets the store's exception
 * through; both are modelled as a `Failure` result naming the exception.
 */
module UserService {
  import opened Wrappers
  import opened Dates
  import opened Entities
  import opened Database
  import Identity
  import Text

  /** The exceptions `CreateAsync` ends with. */
  datatype CreateException = InvalidOperationException(message: string) | DbUpdateException

  /**
   * `CreateAsync(email, password, phone, birthDate, sex)`; `newId` is the fresh identifier
   * the new user is given, and `now` the clock read for the new rows' timestamps. The phone
   * is stored as given, `null` included; a `null` sex makes the store reject the user.
   */
  method CreateAsync(db: RencardDb, oracle: Identity.IdentityOracle, email: string, password: string,
                     phone: Option<string>, birthDate: DateTime, sex: Option<string>, newId: string, now: DateTime)
    returns (r: Result<User, CreateException>)
    requires db.Valid() && newId !in db.users
    modifies db
    ensures db.Valid()
    ensures db.refreshTokens == old(db.refreshTokens)
    ensures var errors := old(Identity.CreateErrors(oracle, db, email, password));
      && (errors != [] ==> r == Failure(InvalidOperationException(Text.Join(errors, ';'))))
      && (errors == [] && sex.None? ==> r == Failure(DbUpdateException))
      && (errors == [] && sex.Some? <==> r.Success?)
    ensures r.Failure? ==> db.users == old(db.users) && db.ProfileTables() == old(db.ProfileTables())
    ensures r.Success? ==>
      var user := r.value;
      && fresh(user) && user.id == newId
      && user.userName == email && user.email == Some(email)
      && user.phoneNumber == phone && user.birthDate == Some(birthDate) && user.sex == sex
      && user.passwordHash == oracle.hashPassword(password)
      && db.users == old(db.users)[newId := user]
    ensures r.Success? ==> DefaultRowsAdded(db, old(db.ProfileTables()), newId, now)
    ensures r.Success? ==>
      && fresh(db.aboutUsers[newId]) && fresh(db.userPreferences[newId])
      && fresh(db.userLocations[newId]) && fresh(db.userPhotos[newId])
  {
    // The password hash is filled in by the directory when the user is created.
    var user := new User(newId, email, Some(email), "", phone, Some(birthDate), sex);
    var created := Identity.Create(db, oracle, user, password);
    if created.Refused? {
      return Failure(InvalidOperationException(Text.Join(created.errors, ';')));
    } else if created.InsertRejected? {
      return Failure(DbUpdateException);
    }

    var prefs := new UserPreferences(user.id);
    var loc := new UserLocation(user.id, now);
    var about := new AboutUser(user.id);
    var photo := new UserPhoto(user.id, now);

    db.AddProfileRows(about, prefs, loc, photo);
    return Success(user);
  }

  /**
   * Compared with `before`, each profile table has exactly one new row, a fresh one with
   * the entity's defaults, under `userId`.
   */
  ghost predicate DefaultRowsAdded(
    db: RencardDb,
    before: (map<string, AboutUser>, map<string, UserPreferences>, map<string, UserLocation>, map<string, UserPhoto>),
    userId: string, now: DateTime)
    reads db, db.aboutUsers.Values, db.userPreferences.Values, db.userLocations.Values, db.userPhotos.Values
  {
    && userId in db.aboutUsers && userId in db.userPreferences && userId in db.userLocations && userId in db.userPhotos
    && db.aboutUsers == before.0[userId := db.aboutUsers[userId]]
    && db.userPreferences == before.1[userId := db.userPreferences[userId]]
    && db.userLocations == before.2[userId := db.userLocations[userId]]
    && db.userPhotos == before.3[userId := db.userPhotos[userId]]
    && db.aboutUsers[userId].ToDto() == DefaultAbout
    && db.userPreferences[userId].ToDto() == DefaultPreferences
    && db.userLocations[userId].geography == None && db.userLocations[userId].lastUpdated == now
    && db.userPhotos[userId].blobUrl == None && db.userPhotos[userId].uploadedAt == now
  }
}

=== FILE: wrappers.dfy ===
/** Nullable values of the C# source (`string?`, `int?`, `DateTime?`, a reference that may be null). */
module Wrappers {

  datatype Option<+T> = None | Some(value: T) {

    /** The value, or `default` when absent (the C# `??` operator). */
    function GetOr(default: T): T {
      match this
      case Some(v) => v
      case None => default
    }
  }

  /** A value, or the message of the exception thrown instead. */
  datatype Result<+T, +E> = Success(value: T) | Failure(error: E)
}
